=== FILE: README.md ===
# Dependency-to-module classification of the JBoss modules Maven plugin

This project models, in Dafny, the classification core of the
smartics JBoss modules Maven plugin. For each resolved Maven dependency,
the plugin decides which JBoss module it belongs to. The plugin is
configured with modules. Each has a name template, an optional slot, and
ordered include and exclude rules called *clusions*.

- **Clusion** (`clusions.dfy`). A clusion holds a groupId criterion and an
  artifactId criterion.
  - A criterion compiles to a pattern. If the text is not a valid regular
    expression, the criterion falls back to literal equality.
  - A null or blank criterion is unspecified.
  - The clusion matches when at least one criterion is specified and every
    specified criterion holds.
  - As written in the source, *both* criteria are evaluated against the
    artifact's **artifactId**. The model reproduces this.
  - Only the artifactId criterion's matcher is passed on.
- **MatchContext** (`matchcontexts.dfy`). This is the outcome of a match:
  a boolean, plus the regular-expression matcher when one was used.
  - `translateName` replaces `$1`, `$2`, ... in a template by the
    captured groups. It replaces in ascending group order, using Java's
    `String.replace` (every non-overlapping occurrence, left to right).
  - `$1` is replaced first, so with one group or more a `$10` in the
    template becomes group 1 followed by `0`.
  - A captured text that itself holds `$k`, for k greater than its own
    group number and at most the group count, is rewritten by the later
    replacements. A `$k` beyond the group count is never a target and
    stays as it is.
  - The model keeps both behaviours of the loop at
    `MatchContext.java:113-119`.
- **Module** (`modules.dfy`). A module matches when some include matches
  and no exclude does. Among the includes, the first match wins and
  supplies the captures.
  - Identity (`equals`/`hashCode`) is the pair (name, slot).
  - The hash is modelled with Java `int` wrap-around and
    `String.hashCode` over UTF-16 code units.
- **ModuleMap** (`modulemaps.dfy`). This is the stateful engine. It
  memoises dependency → module and aggregates module → dependencies,
  keyed by module identity. For a new dependency:
  - The first configured module that matches decides.
  - If that match captured groups, the dependency goes to a new module
    named from the template.
  - Otherwise it goes to the configured module itself.
  - If no module matches, it goes to a new module with the default name
    derived from groupId and artifactId.
  - A blank coordinate on that default-name path is an error.

The body of `add` is modelled as `Insert`, which takes the classification
as a function. `Add` and `Build` pass the classification by the map's own
configured modules.
The memo maps each dependency to the module instance that `add` returned,
not just to its identity, because later calls return that same instance.
The aggregation keeps, for each identity, the module instance stored first
together with the set of its dependencies. That first instance becomes the
key of the `toMap` snapshot.

Java `null` is modelled as `Option` and exceptions as `Result`. The
regular-expression engine is a parameter, `Regex.Engine`: an opaque
`Pattern` type with `compile`, `groupCount` and `fullMatch` functions.
Its only constraint is that a successful match yields exactly
`groupCount` captures.

`scenarios.dfy` works one configuration through a whole build:
"acme.$1" with the include artifactId "acme-(.*)".

Where the plugin's documentation and its code disagree, the model follows
the code. The documentation of `Clusion.matches` (`Clusion.java:154-156`)
says an artifact matches on "groupId and artifactId", but both criteria are
tested against the artifactId (`Clusion.java:181`).

The model also reproduces these choices of the code:
- a blank criterion is unspecified: no pattern is compiled for it
  (`Clusion.java:104`) and it is not compared as a literal
  (`Clusion.java:188`);
- only the artifactId criterion's matcher reaches the result
  (`Clusion.java:174`);
- each module's dependencies are kept in a hash multimap
  (`ModuleMap.java:58-59`), so they are modelled as a set with no order.

## Model

| member | source | states |
|---|---|---|
| MatchContexts.OfResult | maven/smartics-jboss-modules-maven-plugin/src/main/java/de/smartics/maven/plugin/jboss/modules/domain/MatchContext.java:50-54 | a plain outcome carries the given result and no matcher |
| MatchContexts.OfMatcher | maven/smartics-jboss-modules-maven-plugin/src/main/java/de/smartics/maven/plugin/jboss/modules/domain/MatchContext.java:61-65 | matched exactly when the pattern matched the whole input; the matcher is kept |
| MatchContexts.Derived | maven/smartics-jboss-modules-maven-plugin/src/main/java/de/smartics/maven/plugin/jboss/modules/domain/MatchContext.java:73-78 | takes the given result; inherits the source's matcher only when the source exists and matched, otherwise has none |
| MatchContexts.GroupMatchMeansCaptures | maven/smartics-jboss-modules-maven-plugin/src/main/java/de/smartics/maven/plugin/jboss/modules/domain/MatchContext.java:131-139 | a group match holds exactly when the context matched through a successful regular-expression match that captured at least one group |
| MatchContexts.TranslateName | maven/smartics-jboss-modules-maven-plugin/src/main/java/de/smartics/maven/plugin/jboss/modules/domain/MatchContext.java:106-123 | without a group match the name comes back unchanged |
| MatchContexts.PlainResultHasNoGroups | maven/smartics-jboss-modules-maven-plugin/src/main/java/de/smartics/maven/plugin/jboss/modules/domain/MatchContext.java:106-139 | a context built from a boolean has no group match and translates every name to itself |
| MatchContexts.TranslateNameSubstitutesGroups | maven/smartics-jboss-modules-maven-plugin/src/main/java/de/smartics/maven/plugin/jboss/modules/domain/MatchContext.java:108-122 | with a group match the name is the template after replacing $i by group i for i = 1..groupCount in order, and a template with none of these placeholders is returned unchanged |
| MatchContexts.SubstituteWithoutPlaceholders | maven/smartics-jboss-modules-maven-plugin/src/main/java/de/smartics/maven/plugin/jboss/modules/domain/MatchContext.java:104-119 | a template holding none of the placeholders $1..$n comes back unchanged, as the documentation of translateName promises; a template holding $k for some k > n need not, because $10 starts with $1 (see ShorterPlaceholderCutsLongerOne) |
| MatchContexts.SingleGroupReplacesEveryOccurrence | maven/smartics-jboss-modules-maven-plugin/src/main/java/de/smartics/maven/plugin/jboss/modules/domain/MatchContext.java:113-119 | with one group, the name is the template cut at each $1, scanning left to right without overlap, and glued back with the capture: no piece between the cuts holds a $1, every piece but the last is followed by the first occurrence at or after its start, and gluing with $1 gives the template back |
| MatchContexts.ShorterPlaceholderCutsLongerOne | maven/smartics-jboss-modules-maven-plugin/src/main/java/de/smartics/maven/plugin/jboss/modules/domain/MatchContext.java:113-119 | replacing $i rewrites the head of $(10i + d): $(10i + d) becomes the group text followed by the digit d |
| MatchContexts.TenthPlaceholderWithOneGroup | maven/smartics-jboss-modules-maven-plugin/src/main/java/de/smartics/maven/plugin/jboss/modules/domain/MatchContext.java:113-119 | with one captured group, the template "$10" becomes group 1 followed by "0" |
| MatchContexts.CaptureRewrittenByLaterGroup | maven/smartics-jboss-modules-maven-plugin/src/main/java/de/smartics/maven/plugin/jboss/modules/domain/MatchContext.java:113-119 | a captured text holding a later placeholder is rewritten by the later replacement: with captures "$2" and g, the template "$1" becomes g |
| MatchContexts.CaptureBeyondGroupCountSurvives | maven/smartics-jboss-modules-maven-plugin/src/main/java/de/smartics/maven/plugin/jboss/modules/domain/MatchContext.java:113-119 | only $1..$groupCount are replaced: with the single capture "$3", the template "$1" becomes "$3" and is not rewritten further |
| MatchContexts.HasGroupMatch | maven/smartics-jboss-modules-maven-plugin/src/main/java/de/smartics/maven/plugin/jboss/modules/domain/MatchContext.java:131-139 | a group match is a successful regular-expression match with at least one capture, and a context built from a boolean never has one |
| Strings.ReplaceAll | maven/smartics-jboss-modules-maven-plugin/src/main/java/de/smartics/maven/plugin/jboss/modules/domain/MatchContext.java:117 | String.replace puts the replacement exactly at the cuts of Split: the pieces of the text between the occurrences of the target are kept and glued with the replacement |
| Strings.SplitCutsAtEveryOccurrence | maven/smartics-jboss-modules-maven-plugin/src/main/java/de/smartics/maven/plugin/jboss/modules/domain/MatchContext.java:117 | Split cuts at every occurrence, leftmost first and without overlap: no piece holds the target, and every piece but the last is followed by the first occurrence starting at or after its start |
| Strings.SplitIsUnique | maven/smartics-jboss-modules-maven-plugin/src/main/java/de/smartics/maven/plugin/jboss/modules/domain/MatchContext.java:117 | any cutting of the text into pieces separated by the target at its leftmost occurrences is Split's, so the replacement positions of String.replace are determined by the text alone |
| Strings.IsBlank | maven/smartics-jboss-modules-maven-plugin/src/main/java/de/smartics/maven/plugin/jboss/modules/Clusion.java:104 | StringUtils.isBlank: a string is blank exactly when every character is Java whitespace; the empty string is blank |
| Strings.ReplaceAbsentIsIdentity | maven/smartics-jboss-modules-maven-plugin/src/main/java/de/smartics/maven/plugin/jboss/modules/domain/MatchContext.java:117 | replacing a target that does not occur leaves the text unchanged |
| Strings.DecimalRoundTrip | maven/smartics-jboss-modules-maven-plugin/src/main/java/de/smartics/maven/plugin/jboss/modules/domain/MatchContext.java:117 | the decimal rendering of a group number parses back to that number |
| Clusions.NewClusionCompiled | maven/smartics-jboss-modules-maven-plugin/src/main/java/de/smartics/maven/plugin/jboss/modules/Clusion.java:69-71 | a clusion made by the default constructor, with no text and no pattern, already keeps each stored pattern equal to the compilation of its text, so the setters keep every clusion well formed |
| Clusions.SetGroupId | maven/smartics-jboss-modules-maven-plugin/src/main/java/de/smartics/maven/plugin/jboss/modules/Clusion.java:96-100 | sets the groupId text, leaves the artifactId text, and keeps each stored pattern equal to the compilation of its text |
| Clusions.SetArtifactId | maven/smartics-jboss-modules-maven-plugin/src/main/java/de/smartics/maven/plugin/jboss/modules/Clusion.java:133-137 | sets the artifactId text, leaves the groupId text, and keeps each stored pattern equal to the compilation of its text |
| Clusions.CompilePattern | maven/smartics-jboss-modules-maven-plugin/src/main/java/de/smartics/maven/plugin/jboss/modules/Clusion.java:102-116 | a pattern is stored exactly when the text is neither null nor blank and compiles, and it is that compilation |
| Clusions.MatchCriterion | maven/smartics-jboss-modules-maven-plugin/src/main/java/de/smartics/maven/plugin/jboss/modules/Clusion.java:178-194 | for a stored pattern that is the compilation of the text: the criterion takes part exactly when the text is specified, it holds exactly when the text accepts the artifactId, and a matcher comes only from a compiled text |
| Clusions.Matches | maven/smartics-jboss-modules-maven-plugin/src/main/java/de/smartics/maven/plugin/jboss/modules/Clusion.java:158-176 | matched iff some criterion is specified and every specified criterion holds; any matcher is the artifactId criterion's and present only when that criterion held |
| Clusions.MatchesIffSpecifiedCriteriaAccept | maven/smartics-jboss-modules-maven-plugin/src/main/java/de/smartics/maven/plugin/jboss/modules/Clusion.java:158-194 | on the configured texts: matched iff some text is non-blank and each non-blank text accepts the artifactId (whole-input regex match, or equality when the text does not compile) |
| Clusions.UnspecifiedClusionMatchesNothing | maven/smartics-jboss-modules-maven-plugin/src/main/java/de/smartics/maven/plugin/jboss/modules/Clusion.java:169-172 | a clusion with both texts null or blank matches no artifact |
| Clusions.FailingGroupIdVetoes | maven/smartics-jboss-modules-maven-plugin/src/main/java/de/smartics/maven/plugin/jboss/modules/Clusion.java:160-165 | a specified groupId criterion that rejects the input yields a plain false with no matcher, whatever the artifactId criterion says |
| Clusions.SingleCriterionDecides | maven/smartics-jboss-modules-maven-plugin/src/main/java/de/smartics/maven/plugin/jboss/modules/Clusion.java:169-172 | with exactly one specified criterion, the clusion matches iff that criterion accepts |
| Clusions.OnlyArtifactIdIsConsulted | maven/smartics-jboss-modules-maven-plugin/src/main/java/de/smartics/maven/plugin/jboss/modules/Clusion.java:178-194 | two artifacts with the same artifactId get the same context from every clusion, whatever their groupIds |
| Clusions.InvalidPatternDegradesToLiteral | maven/smartics-jboss-modules-maven-plugin/src/main/java/de/smartics/maven/plugin/jboss/modules/Clusion.java:102-116 | a non-blank text that does not compile stores no pattern and holds exactly for the input equal to the text |
| Clusions.CapturesComeFromArtifactId | maven/smartics-jboss-modules-maven-plugin/src/main/java/de/smartics/maven/plugin/jboss/modules/Clusion.java:174 | a matcher in the result is the whole-input match of the compiled artifactId text against the artifactId |
| Modules.HasDependencies | maven/smartics-jboss-modules-maven-plugin/src/main/java/de/smartics/maven/plugin/jboss/modules/Module.java:254-257 | true exactly when some extra module dependency is listed |
| Modules.Named | maven/smartics-jboss-modules-maven-plugin/src/main/java/de/smartics/maven/plugin/jboss/modules/domain/ModuleMap.java:187-210 | a synthesised module has the given name, no slot, no rules and no extra dependencies |
| Modules.FirstMatchFrom | maven/smartics-jboss-modules-maven-plugin/src/main/java/de/smartics/maven/plugin/jboss/modules/Module.java:300-310 | from a position on, given each clusion's context: matched iff some later clusion's context is matched, the result is the context of the first such clusion, and otherwise a plain false |
| Modules.Cludes | maven/smartics-jboss-modules-maven-plugin/src/main/java/de/smartics/maven/plugin/jboss/modules/Module.java:297-312 | first match wins over a possibly null list: matched iff some clusion matches, with the first matching clusion's context, otherwise a plain false |
| Modules.Match | maven/smartics-jboss-modules-maven-plugin/src/main/java/de/smartics/maven/plugin/jboss/modules/Module.java:280-295 | matched iff some include matches and no exclude does; with no include match a plain false; with an include match the matcher is that of the first matching include |
| Modules.NoIncludesNeverMatch | maven/smartics-jboss-modules-maven-plugin/src/main/java/de/smartics/maven/plugin/jboss/modules/Module.java:297-312 | a module with a null or empty include list never matches and carries no matcher |
| Modules.ExcludeOverridesInclude | maven/smartics-jboss-modules-maven-plugin/src/main/java/de/smartics/maven/plugin/jboss/modules/Module.java:282-287 | any matching exclude vetoes any matching include, and the vetoed context has no group match |
| Modules.FirstIncludeProvidesCaptures | maven/smartics-jboss-modules-maven-plugin/src/main/java/de/smartics/maven/plugin/jboss/modules/Module.java:287-290 | when include i is the first to match and no exclude matches, the module matches and names translate with include i's captures |
| Modules.Equals | maven/smartics-jboss-modules-maven-plugin/src/main/java/de/smartics/maven/plugin/jboss/modules/Module.java:326-342 | two modules are equal exactly when their identities (name, slot) agree |
| Modules.EqualsIsKeyEquality | maven/smartics-jboss-modules-maven-plugin/src/main/java/de/smartics/maven/plugin/jboss/modules/Module.java:326-342 | equality is an equivalence relation, coincides with equality of (name, slot), and ignores rules and payload |
| Modules.HashCode | maven/smartics-jboss-modules-maven-plugin/src/main/java/de/smartics/maven/plugin/jboss/modules/Module.java:316-324 | the hash code is a 32-bit signed int |
| Modules.EqualModulesHashAlike | maven/smartics-jboss-modules-maven-plugin/src/main/java/de/smartics/maven/plugin/jboss/modules/Module.java:316-342 | equal modules have equal hash codes |
| ModuleMaps.CreateName | maven/smartics-jboss-modules-maven-plugin/src/main/java/de/smartics/maven/plugin/jboss/modules/domain/ModuleMap.java:224-240 | a blank groupId fails first, then a blank artifactId; otherwise the name starts with the groupId and ends with the artifactId, is the groupId alone exactly when groupId equals artifactId or ends with "." + artifactId, and is groupId.artifactId otherwise |
| ModuleMaps.CreateNameIdempotent | maven/smartics-jboss-modules-maven-plugin/src/main/java/de/smartics/maven/plugin/jboss/modules/domain/ModuleMap.java:231-238 | naming a default name again with the same artifactId gives it back |
| ModuleMaps.CreateNameSuffixExample | maven/smartics-jboss-modules-maven-plugin/src/main/java/de/smartics/maven/plugin/jboss/modules/domain/ModuleMap.java:231-234 | ("org.example", "example") is named "org.example" |
| ModuleMaps.CreateNameAppendExample | maven/smartics-jboss-modules-maven-plugin/src/main/java/de/smartics/maven/plugin/jboss/modules/domain/ModuleMap.java:235-238 | ("org.example", "widget") is named "org.example.widget" |
| ModuleMaps.FirstRuleFrom | maven/smartics-jboss-modules-maven-plugin/src/main/java/de/smartics/maven/plugin/jboss/modules/domain/ModuleMap.java:157-174 | from a position on, given which modules match: the first matching module's position with no match before it, or none when no module from there on matches |
| ModuleMaps.FirstRuleIsUnique | maven/smartics-jboss-modules-maven-plugin/src/main/java/de/smartics/maven/plugin/jboss/modules/domain/ModuleMap.java:157-160 | the module scan stops at the first configured module that matches |
| ModuleMaps.Classify | maven/smartics-jboss-modules-maven-plugin/src/main/java/de/smartics/maven/plugin/jboss/modules/domain/ModuleMap.java:157-210 | the module a new dependency is assigned is either one of the configured modules or a freshly named module with no slot, rules or payload; a failure is the blank-argument error of the groupId or the artifactId |
| ModuleMaps.CapturingRuleSynthesisesModule | maven/smartics-jboss-modules-maven-plugin/src/main/java/de/smartics/maven/plugin/jboss/modules/domain/ModuleMap.java:162-166 | when the first matching module captured groups, the dependency goes to a new module without slot, named by substituting the captures into that module's template |
| ModuleMaps.LiteralRuleIsReused | maven/smartics-jboss-modules-maven-plugin/src/main/java/de/smartics/maven/plugin/jboss/modules/domain/ModuleMap.java:168-172 | when the first matching module captured no groups, the dependency goes to that configured module itself |
| ModuleMaps.UnmatchedFallsBackToDefaultName | maven/smartics-jboss-modules-maven-plugin/src/main/java/de/smartics/maven/plugin/jboss/modules/domain/ModuleMap.java:176-178 | with no matching module, the dependency goes to a new module with the default name of its coordinates, or fails as the default naming fails |
| ModuleMaps.ClassifyFailsOnlyOnBlankCoordinates | maven/smartics-jboss-modules-maven-plugin/src/main/java/de/smartics/maven/plugin/jboss/modules/domain/ModuleMap.java:198-228 | classification fails only when no module matches and a coordinate is blank |
| ModuleMaps.Create | maven/smartics-jboss-modules-maven-plugin/src/main/java/de/smartics/maven/plugin/jboss/modules/domain/ModuleMap.java:74-87 | a new map holds the given modules, has classified nothing and is consistent |
| ModuleMaps.Store | maven/smartics-jboss-modules-maven-plugin/src/main/java/de/smartics/maven/plugin/jboss/modules/domain/ModuleMap.java:181-185 | memoises the module for the dependency and adds the dependency under the module's identity, keeping the instance stored first under that identity and leaving other identities alone; consistency is preserved for a new dependency |
| ModuleMaps.Insert | maven/smartics-jboss-modules-maven-plugin/src/main/java/de/smartics/maven/plugin/jboss/modules/domain/ModuleMap.java:149-185 | for any classification: a memoised dependency returns its module and changes nothing; a new one is stored under its classified module, and a failed classification leaves no trace; consistency is preserved and the dependency ends up under the returned module's identity |
| ModuleMaps.Add | maven/smartics-jboss-modules-maven-plugin/src/main/java/de/smartics/maven/plugin/jboss/modules/domain/ModuleMap.java:149-179 | a dependency seen before returns its memoised module and changes nothing; a new one is classified and stored, and a failed classification leaves no trace; consistency is preserved and the dependency ends up under the returned module's identity |
| ModuleMaps.AddIsIdempotent | maven/smartics-jboss-modules-maven-plugin/src/main/java/de/smartics/maven/plugin/jboss/modules/domain/ModuleMap.java:151-155 | adding a dependency a second time returns the same module and leaves the state unchanged |
| ModuleMaps.StoredUnderExactlyOneModule | maven/smartics-jboss-modules-maven-plugin/src/main/java/de/smartics/maven/plugin/jboss/modules/domain/ModuleMap.java:181-185 | in a consistent state each memoised dependency is listed under exactly one identity, that of its memoised module |
| ModuleMaps.GetModule | maven/smartics-jboss-modules-maven-plugin/src/main/java/de/smartics/maven/plugin/jboss/modules/domain/ModuleMap.java:249-258 | returns exactly what add returns for the same state and dependency |
| ModuleMaps.ToMap | maven/smartics-jboss-modules-maven-plugin/src/main/java/de/smartics/maven/plugin/jboss/modules/domain/ModuleMap.java:126-137 | one entry per aggregated identity, keyed by the module instance stored first and valued with the dependencies listed under it |
| ModuleMaps.ToMapPartitionsDependencies | maven/smartics-jboss-modules-maven-plugin/src/main/java/de/smartics/maven/plugin/jboss/modules/domain/ModuleMap.java:126-137 | the snapshot partitions the classified dependencies: entries are non-empty, no two keys are equal modules, every memoised dependency appears, and none appears twice |
| ModuleMaps.AddAll | maven/smartics-jboss-modules-maven-plugin/src/main/java/de/smartics/maven/plugin/jboss/modules/domain/ModuleMap.java:111-117 | adding a list with a fixed classification keeps the modules, memoises exactly the old plus the listed dependencies, and keeps earlier assignments (the assignment of the new ones is stated by AddAllAssignsClassification) |
| ModuleMaps.AddAllPreservesValid | maven/smartics-jboss-modules-maven-plugin/src/main/java/de/smartics/maven/plugin/jboss/modules/domain/ModuleMap.java:111-117 | adding a list keeps a consistent map consistent |
| ModuleMaps.AddAllFailsOnlyOnClassify | maven/smartics-jboss-modules-maven-plugin/src/main/java/de/smartics/maven/plugin/jboss/modules/domain/ModuleMap.java:111-117 | adding a list fails only at a listed dependency that was not memoised before and whose classification fails |
| ModuleMaps.AddAllSucceedsWhenAllClassify | maven/smartics-jboss-modules-maven-plugin/src/main/java/de/smartics/maven/plugin/jboss/modules/domain/ModuleMap.java:111-117 | adding a list succeeds when every listed dependency not yet memoised can be classified |
| ModuleMaps.AddAllAssignsClassification | maven/smartics-jboss-modules-maven-plugin/src/main/java/de/smartics/maven/plugin/jboss/modules/domain/ModuleMap.java:111-117 | every listed dependency not memoised before ends up memoised with the module its classification gives |
| ModuleMaps.Build | maven/smartics-jboss-modules-maven-plugin/src/main/java/de/smartics/maven/plugin/jboss/modules/domain/ModuleMap.java:95-103 | a null module list counts as empty; on success the map is consistent and has classified exactly the given dependencies; a failure names a dependency whose classification fails (which module each dependency gets is stated by BuildAssignsClassification) |
| ModuleMaps.BuildAssignsClassification | maven/smartics-jboss-modules-maven-plugin/src/main/java/de/smartics/maven/plugin/jboss/modules/domain/ModuleMap.java:95-117 | every given dependency is mapped to the module that classification by the configured modules assigns it, and construction fails exactly when some dependency cannot be classified |
| Scenarios.AcmeScenario | maven/smartics-jboss-modules-maven-plugin/src/main/java/de/smartics/maven/plugin/jboss/modules/domain/ModuleMap.java:149-179 | with the template "acme.$1" including "acme-(.*)", the dependencies any:acme-core, any:acme-utils and any:other end up in acme.core, acme.utils and any.other, one each |

## Left out

- The Maven mojo, the repository access and the transitive dependency
  resolution that feed the core with dependencies: these are I/O and
  orchestration.
- The regular-expression language: patterns, compilation and whole-input
  matching come from the `Regex.Engine` parameter. They are not defined
  here.
- Capture groups that took part in no match: Java returns `null` for
  these, and `String.replace` would then throw. The model treats every
  capture as a string.
- The order of `toMap` and of each module's dependency list: both come
  from hash collections with unspecified iteration order, so they are
  modelled as a map of sets.
- `toString` and plain getters and setters other than `setGroupId` and
  `setArtifactId`: the model reads datatype fields instead.
- A configured module with a null name: names are non-null strings here,
  so it cannot be expressed. The source handles such a module until its
  name is translated. Its `equals` and `hashCode` are null-safe
  (`Module.java:316-342`), so when it wins without capture groups it is
  stored and returned under the identity (null, slot). When it wins with
  capture groups, `translateName` throws `NullPointerException`
  (`MatchContext.java:113-117`).
- A null groupId: coordinates are non-null strings here. Matching never
  reads the groupId (`Clusion.java:181`), so the source classifies such a
  dependency normally when a rule matches it. It fails only on the
  default-name path, in the argument check of `createName`
  (`ModuleMap.java:227`).
- A null artifactId: literal criteria compare it with `equals` and simply
  do not hold. A compiled pattern matched against it throws
  (`Clusion.java:184`), and so does the default-name path.
- A null dependency or a null artifact: every path through `add`
  dereferences it, so the source throws `NullPointerException`. The model
  takes values.
- A null module list given to the one-argument `ModuleMap` constructor,
  which fails only later inside `add`: the model takes a list.
- A null dependency list given to the convenience constructor, which
  throws: the model takes a list.
- `Arg.checkNotBlank` (`de.smartics.util.lang.Arg`) is not part of this
  model. It is taken to reject exactly the strings `StringUtils.isBlank`
  rejects, naming the argument in the `IllegalArgumentException`.
- Fields of a Maven dependency beyond its coordinates, scope and optional
  flag (for example exclusions): they take part only in the equality the
  memo uses, so they are not modelled.
- Concurrency: the source class is not thread-safe, and the model is a
  pure function of its state.
- Strings.IsBlank: whitespace is that of `Character.isWhitespace` on JDK 9
  and later. The Java 7 and 8 runtimes also count U+180E MONGOLIAN VOWEL
  SEPARATOR, so a criterion or coordinate made of it alone is blank there
  and not here.
- Modules.HashCode: states only the 32-bit range of the result. How the
  value is computed (Java `int` arithmetic over `String.hashCode`) is in
  the definition, and equal modules hashing alike is proved separately.

=== FILE: artifacts.dfy ===
/** The resolved dependencies the engine classifies. They come from the
    dependency resolver and are never changed by the engine; equality is
    structural over every coordinate. */
module Artifacts {

  /** The coordinates of a resolved artifact. Only groupId and artifactId
      take part in classification; the rest distinguish otherwise equal
      dependencies. */
  datatype Artifact = Artifact(
    groupId: string,
    artifactId: string,
    version: string,
    classifier: string,
    extension: string)

  /** A resolved dependency: an artifact in a scope. */
  datatype Dependency = Dependency(artifact: Artifact, scope: string, optional: bool)
}

=== FILE: clusions.dfy ===
/** An include or exclude rule of a module: a groupId criterion and an
    artifactId criterion, ANDed. Each criterion is kept as the configured
    text and, when that text is a valid regular expression, its compiled
    pattern. */
module Clusions {
  import opened Wrappers
  import opened Strings
  import opened Regex
  import opened Artifacts
  import opened MatchContexts

  datatype Clusion = Clusion(
    groupId: Option<string>,
    groupIdPattern: Option<Pattern>,
    artifactId: Option<string>,
    artifactIdPattern: Option<Pattern>)

  /** A criterion text that is null or blank. */
  predicate IsBlankOrNull(s: Option<string>) {
    s.None? || IsBlank(s.value)
  }

  /** `compilePattern`: null or blank text yields no pattern; otherwise the
      engine's compilation, which is None for an invalid expression. */
  function CompilePattern(re: Engine, s: Option<string>): (p: Option<Pattern>)
    ensures p.Some? <==> Specified(s) && re.compile(s.value).Some?
    ensures p.Some? ==> p == re.compile(s.value)
  {
    if !IsBlankOrNull(s) then re.compile(s.value) else None
  }

  /** The default constructor: neither criterion set. */
  function NewClusion(): Clusion {
    Clusion(None, None, None, None)
  }

  /** Each stored pattern is the compilation of its stored text, as the
      setters leave it. */
  ghost predicate Compiled(re: Engine, c: Clusion) {
    && c.groupIdPattern == CompilePattern(re, c.groupId)
    && c.artifactIdPattern == CompilePattern(re, c.artifactId)
  }

  /** A clusion made by the default constructor is well formed: it holds no
      text and no pattern. */
  lemma NewClusionCompiled(re: Engine)
    ensures Compiled(re, NewClusion())
  {
  }

  /** `setGroupId`: stores the text and recompiles its pattern. */
  function SetGroupId(re: Engine, c: Clusion, groupId: Option<string>): (c': Clusion)
    ensures c'.groupId == groupId && c'.artifactId == c.artifactId
    ensures Compiled(re, c) ==> Compiled(re, c')
  {
    c.(groupId := groupId, groupIdPattern := CompilePattern(re, groupId))
  }

  /** `setArtifactId`: stores the text and recompiles its pattern. */
  function SetArtifactId(re: Engine, c: Clusion, artifactId: Option<string>): (c': Clusion)
    ensures c'.artifactId == artifactId && c'.groupId == c.groupId
    ensures Compiled(re, c) ==> Compiled(re, c')
  {
    c.(artifactId := artifactId, artifactIdPattern := CompilePattern(re, artifactId))
  }

  /** The private `matches(Pattern, String, Artifact)`: one criterion against
      the artifact's artifactId. None stands for "criterion not specified". */
  function MatchCriterion(re: Engine, pattern: Option<Pattern>, id: Option<string>, a: Artifact)
    : (r: Option<MatchContext>)
    ensures pattern == CompilePattern(re, id) ==>
      && (r.Some? <==> Specified(id))
      && (r.Some? ==> (r.value.result <==> Accepts(re, id.value, a.artifactId)))
      && (r.Some? && r.value.matcher.Some? ==> re.compile(id.value).Some?)
  {
    var input := a.artifactId;
    if pattern.Some? then Some(OfMatcher(MatchWhole(re, pattern.value, input)))
    else if !IsBlankOrNull(id) then Some(OfResult(id.value == input))
    else None
  }

  /** `matches(Artifact)`: matched iff at least one criterion is specified
      and every specified criterion holds; the context keeps the matcher of
      the artifactId criterion only, and only when that criterion held. */
  function Matches(re: Engine, c: Clusion, a: Artifact): (r: MatchContext)
    ensures var g := MatchCriterion(re, c.groupIdPattern, c.groupId, a);
            var ar := MatchCriterion(re, c.artifactIdPattern, c.artifactId, a);
            && (r.result <==> (g.Some? || ar.Some?)
                              && (g.Some? ==> g.value.result)
                              && (ar.Some? ==> ar.value.result))
            && (r.matcher.Some? ==> ar.Some? && ar.value.result && r.matcher == ar.value.matcher)
            && (r.result && ar.Some? ==> r.matcher == ar.value.matcher)
  {
    var matchesGroupId := MatchCriterion(re, c.groupIdPattern, c.groupId, a);
    if matchesGroupId.Some? && !matchesGroupId.value.result then OfResult(false)
    else
      var matchesArtifactId := MatchCriterion(re, c.artifactIdPattern, c.artifactId, a);
      var result :=
        || (matchesGroupId.Some? && matchesGroupId.value.result
            && (matchesArtifactId.None? || matchesArtifactId.value.result))
        || (matchesArtifactId.Some? && matchesArtifactId.value.result);
      Derived(result, matchesArtifactId)
  }

  // --- properties stated on the configured texts -------------------------------

  /** A criterion text is specified when it is neither null nor blank. */
  predicate Specified(s: Option<string>) {
    !IsBlankOrNull(s)
  }

  /** What a specified criterion text demands of an input: a whole-input
      match when the text compiles as a regular expression, and plain
      equality with the text when it does not. */
  ghost predicate Accepts(re: Engine, text: string, input: string) {
    match re.compile(text)
    case Some(p) => re.fullMatch(p, input).Some?
    case None => text == input
  }

  /** A well-formed clusion matches exactly when some criterion is specified
      and every specified criterion accepts the artifact's artifactId. The
      groupId criterion is also tested against the artifactId, as in the
      source. */
  lemma MatchesIffSpecifiedCriteriaAccept(re: Engine, c: Clusion, a: Artifact)
    requires Compiled(re, c)
    ensures Matches(re, c, a).result <==>
      && (Specified(c.groupId) || Specified(c.artifactId))
      && (Specified(c.groupId) ==> Accepts(re, c.groupId.value, a.artifactId))
      && (Specified(c.artifactId) ==> Accepts(re, c.artifactId.value, a.artifactId))
  {
  }

  /** A clusion whose groupId and artifactId are both null or blank matches
      no artifact. */
  lemma UnspecifiedClusionMatchesNothing(re: Engine, c: Clusion, a: Artifact)
    requires Compiled(re, c)
    requires IsBlankOrNull(c.groupId) && IsBlankOrNull(c.artifactId)
    ensures !Matches(re, c, a).result
  {
    MatchesIffSpecifiedCriteriaAccept(re, c, a);
  }

  /** A specified groupId criterion that rejects the input decides the
      outcome alone: no match and no captures, whatever the artifactId
      criterion says. */
  lemma FailingGroupIdVetoes(re: Engine, c: Clusion, a: Artifact)
    requires Compiled(re, c)
    requires Specified(c.groupId) && !Accepts(re, c.groupId.value, a.artifactId)
    ensures Matches(re, c, a) == OfResult(false)
  {
  }

  /** Only one specified criterion: the clusion matches iff that one
      accepts. */
  lemma SingleCriterionDecides(re: Engine, c: Clusion, a: Artifact)
    requires Compiled(re, c)
    requires Specified(c.groupId) != Specified(c.artifactId)
    ensures Matches(re, c, a).result <==>
      if Specified(c.groupId) then Accepts(re, c.groupId.value, a.artifactId)
      else Accepts(re, c.artifactId.value, a.artifactId)
  {
    MatchesIffSpecifiedCriteriaAccept(re, c, a);
  }

  /** The artifact's groupId is never consulted: two artifacts with the same
      artifactId get the same context from every clusion. */
  lemma OnlyArtifactIdIsConsulted(re: Engine, c: Clusion, a: Artifact, b: Artifact)
    requires a.artifactId == b.artifactId
    ensures Matches(re, c, a) == Matches(re, c, b)
  {
  }

  /** A non-blank text that does not compile degrades to literal equality:
      the criterion holds exactly for the input equal to the text. */
  lemma InvalidPatternDegradesToLiteral(re: Engine, text: string, a: Artifact)
    requires !IsBlank(text) && re.compile(text).None?
    ensures CompilePattern(re, Some(text)).None?
    ensures MatchCriterion(re, CompilePattern(re, Some(text)), Some(text), a)
            == Some(OfResult(text == a.artifactId))
  {
  }

  /** Captures reach the result only through the artifactId criterion: when
      the context has a matcher, the artifactId text compiled and its
      pattern matched the whole artifactId, and the matcher is that match. */
  lemma CapturesComeFromArtifactId(re: Engine, c: Clusion, a: Artifact)
    requires Compiled(re, c)
    ensures var r := Matches(re, c, a);
            r.matcher.Some? ==>
              && Specified(c.artifactId)
              && re.compile(c.artifactId.value).Some?
              && Accepts(re, c.artifactId.value, a.artifactId)
              && r.matcher == Some(MatchWhole(re, re.compile(c.artifactId.value).value, a.artifactId))
  {
  }
}

=== FILE: matchcontexts.dfy ===
/** The result of matching a rule against an artifact: a boolean, and, when
    a regular expression drove the match, the matcher whose capture groups
    fill the `$1`, `$2`, ... placeholders of a module-name template. */
module MatchContexts {
  import opened Wrappers
  import opened Strings
  import opened Regex

  datatype Context = Context(result: bool, matcher: Option<Matcher>)

  /** Every context the three constructors can build: a context that is
      matched and holds a matcher holds one whose match succeeded. */
  type MatchContext = c: Context | (c.result && c.matcher.Some? ==> Matched(c.matcher.value))
    witness Context(false, None)

  /** `new MatchContext(boolean)`: a plain outcome with no matcher. */
  function OfResult(result: bool): (c: MatchContext)
    ensures c.result == result && c.matcher.None?
  {
    Context(result, None)
  }

  /** `new MatchContext(Matcher)`: matched exactly when the pattern matched
      the whole input; keeps the matcher even when it failed. */
  function OfMatcher(m: Matcher): (c: MatchContext)
    ensures c.result <==> Matched(m)
    ensures c.matcher == Some(m)
  {
    Context(Matched(m), Some(m))
  }

  /** `new MatchContext(boolean, MatchContext)`: takes the given outcome, and
      inherits the source's matcher only when the source exists and matched. */
  function Derived(result: bool, source: Option<MatchContext>): (c: MatchContext)
    ensures c.result == result
    ensures source.None? || !source.value.result ==> c.matcher.None?
    ensures source.Some? && source.value.result ==> c.matcher == source.value.matcher
  {
    if source.Some? && source.value.result then Context(result, source.value.matcher)
    else Context(result, None)
  }

  /** `hasGroupMatch`: a successful regular-expression match with at least
      one capturing group. */
  predicate HasGroupMatch(c: MatchContext): (b: bool)
    ensures b ==> c.matcher.Some? && Matched(c.matcher.value) && |c.matcher.value.captures.value| > 0
    ensures OfResult(c.result) == c ==> !b
  {
    c.matcher.Some? && c.result && c.matcher.value.groupCount > 0
  }

  /** A group match is a successful regular-expression match that captured
      at least one group. */
  lemma GroupMatchMeansCaptures(c: MatchContext)
    ensures HasGroupMatch(c) <==>
      && c.result && c.matcher.Some? && Matched(c.matcher.value)
      && |c.matcher.value.captures.value| > 0
  {
  }

  /** The captured groups of a context with a group match, group 1 first. */
  function Captures(c: MatchContext): (groups: seq<string>)
    requires HasGroupMatch(c)
    ensures |groups| == c.matcher.value.groupCount > 0
  {
    c.matcher.value.captures.value
  }

  /** The placeholder `"$" + i` a template uses for group i. */
  function Placeholder(i: nat): (p: string)
    ensures |p| > 1 && p[0] == '$'
  {
    "$" + DecimalString(i)
  }

  /** The template after the replacements for groups 1..n, each applied to
      the result of the previous one, in ascending group order. */
  function Substitute(template: string, groups: seq<string>, n: nat): string
    requires n <= |groups|
    decreases n
  {
    if n == 0 then template
    else ReplaceAll(Substitute(template, groups, n - 1), Placeholder(n), groups[n - 1])
  }

  /** `translateName`: the input unchanged unless the context has a group
      match, otherwise every `$i` replaced by group i for i = 1..groupCount. */
  function TranslateName(c: MatchContext, input: string): (name: string)
    ensures !HasGroupMatch(c) ==> name == input
  {
    if c.matcher.Some? && c.result && c.matcher.value.groupCount > 0 then
      Substitute(input, c.matcher.value.captures.value, c.matcher.value.groupCount)
    else input
  }

  /** A plain outcome carries no groups: no group match, and names pass
      through untouched. */
  lemma PlainResultHasNoGroups(result: bool, input: string)
    ensures !HasGroupMatch(OfResult(result))
    ensures TranslateName(OfResult(result), input) == input
  {
  }

  /** Substitution rewrites nothing when the template holds none of the
      placeholders $1..$n. */
  lemma {:induction false} SubstituteWithoutPlaceholders(template: string, groups: seq<string>, n: nat)
    requires n <= |groups|
    requires forall i :: 1 <= i <= n ==> !Occurs(template, Placeholder(i))
    ensures Substitute(template, groups, n) == template
    decreases n
  {
    if n > 0 {
      SubstituteWithoutPlaceholders(template, groups, n - 1);
      ReplaceAbsentIsIdentity(template, Placeholder(n), groups[n - 1]);
    }
  }

  /** With a group match, the name is the template with placeholder i
      replaced by group i for every group in ascending order, and a template
      without placeholders comes back unchanged. */
  lemma TranslateNameSubstitutesGroups(c: MatchContext, input: string)
    requires HasGroupMatch(c)
    ensures TranslateName(c, input) == Substitute(input, Captures(c), |Captures(c)|)
    ensures (forall i :: 1 <= i <= |Captures(c)| ==> !Occurs(input, Placeholder(i)))
            ==> TranslateName(c, input) == input
  {
    if forall i :: 1 <= i <= |Captures(c)| ==> !Occurs(input, Placeholder(i)) {
      SubstituteWithoutPlaceholders(input, Captures(c), |Captures(c)|);
    }
  }

  /** With a single group, every occurrence of `$1` is replaced and the rest
      of the template is kept: the result is the template cut at each `$1`,
      left to right, and glued back with the captured text; no piece between
      the cuts holds a `$1`. */
  lemma SingleGroupReplacesEveryOccurrence(c: MatchContext, input: string)
    requires HasGroupMatch(c) && |Captures(c)| == 1
    ensures var pieces := Split(input, "$1");
            && TranslateName(c, input) == Join(pieces, Captures(c)[0])
            && Join(pieces, "$1") == input
            && (forall k :: 0 <= k < |pieces| ==> !Occurs(pieces[k], "$1"))
            && (forall k :: 0 <= k < |pieces| - 1 ==> FirstOccurrenceAtEnd(pieces[k], "$1"))
  {
    assert Placeholder(1) == "$1";
    SplitJoinRoundTrip(input, "$1");
    SplitCutsAtEveryOccurrence(input, "$1");
  }

  /** A longer placeholder starts with a shorter one: `$i` followed by one
      more digit d is `$(10i + d)`. */
  lemma LongerPlaceholderExtends(i: nat, d: nat)
    requires 1 <= i && d < 10
    ensures Placeholder(10 * i + d) == Placeholder(i) + [DigitChar(d)]
  {
    assert (10 * i + d) / 10 == i && (10 * i + d) % 10 == d;
  }

  /** So replacing `$i` also rewrites the head of `$(10i + d)`: in ascending
      order, `$10` is consumed by the replacement of `$1` and becomes group 1
      followed by "0" before `$10` itself is looked for. */
  lemma ShorterPlaceholderCutsLongerOne(i: nat, d: nat, group: string)
    requires 1 <= i && d < 10
    ensures ReplaceAll(Placeholder(10 * i + d), Placeholder(i), group) == group + [DigitChar(d)]
  {
    LongerPlaceholderExtends(i, d);
    var p := Placeholder(i);
    var s := p + [DigitChar(d)];
    assert s[..|p|] == p && s[|p|..] == [DigitChar(d)];
  }

  /** The replacements run one after another on the whole text, so a
      captured text that holds a later placeholder is rewritten as well:
      with captures "$2" and g, the template "$1" becomes g. */
  lemma CaptureRewrittenByLaterGroup(group: string)
    ensures Substitute("$1", ["$2", group], 2) == group
  {
    assert Placeholder(1) == "$1" && Placeholder(2) == "$2";
    ReplaceTrailing("", "$1", "$2");
    ReplaceTrailing("", "$2", group);
    assert "" + "$1" == "$1" && "" + "$2" == "$2";
  }

  /** Only the placeholders of existing groups are replaced: a captured text
      holding `$k` for k beyond the group count comes back verbatim. */
  lemma CaptureBeyondGroupCountSurvives()
    ensures Substitute("$1", ["$3"], 1) == "$3"
  {
    assert Placeholder(1) == "$1";
    ReplaceTrailing("", "$1", "$3");
    assert "" + "$1" == "$1";
  }

  /** With one captured group, a template using `$10` gets group 1 followed
      by "0" there, although the template names no group 10. */
  lemma TenthPlaceholderWithOneGroup(group: string)
    ensures Substitute("$10", [group], 1) == group + "0"
  {
    ShorterPlaceholderCutsLongerOne(1, 0, group);
    assert Placeholder(10) == "$10" && Placeholder(1) == "$1";
  }
}

=== FILE: modulemaps.dfy ===
/** The classification engine: assigns each resolved dependency to exactly
    one module, memoising the assignment, and aggregates the dependencies
    per module identity (name, slot). */
module ModuleMaps {
  import opened Wrappers
  import opened Strings
  import opened Regex
  import opened Artifacts
  import opened MatchContexts
  import opened Modules

  /** `IllegalArgumentException` from the argument check of `createName`,
      naming the blank argument. */
  datatype Error = BlankArgument(argument: string)

  // --- default naming ---------------------------------------------------------

  /** `createName`: the groupId alone when it equals the artifactId or
      already ends with "." + artifactId, otherwise groupId + "." +
      artifactId; a blank groupId (checked first) or artifactId is an
      error. */
  function CreateName(groupId: string, artifactId: string): (r: Result<string, Error>)
    ensures IsBlank(groupId) ==> r == Err(BlankArgument("groupId"))
    ensures !IsBlank(groupId) && IsBlank(artifactId) ==> r == Err(BlankArgument("artifactId"))
    ensures !IsBlank(groupId) && !IsBlank(artifactId) ==> r.Ok?
    ensures r.Ok? ==> HasPrefix(r.value, groupId) && HasSuffix(r.value, artifactId)
    ensures r.Ok? ==> (r.value == groupId <==> groupId == artifactId || HasSuffix(groupId, "." + artifactId))
    ensures r.Ok? && r.value != groupId ==> r.value == groupId + "." + artifactId
  {
    if IsBlank(groupId) then Err(BlankArgument("groupId"))
    else if IsBlank(artifactId) then Err(BlankArgument("artifactId"))
    else if groupId == artifactId || HasSuffix(groupId, "." + artifactId) then Ok(groupId)
    else Ok(groupId + "." + artifactId)
  }

  lemma NotBlankPrefix(s: string, prefix: string)
    requires HasPrefix(s, prefix) && !IsBlank(prefix)
    ensures !IsBlank(s)
  {
    var i :| 0 <= i < |prefix| && !IsJavaWhitespace(prefix[i]);
    assert s[i] == prefix[i];
  }

  /** A default name is a fixed point: naming it again with the same
      artifactId gives it back. */
  lemma CreateNameIdempotent(groupId: string, artifactId: string)
    requires CreateName(groupId, artifactId).Ok?
    ensures CreateName(CreateName(groupId, artifactId).value, artifactId) == CreateName(groupId, artifactId)
  {
    var name := CreateName(groupId, artifactId).value;
    NotBlankPrefix(name, groupId);
    if name != groupId {
      var suffix := "." + artifactId;
      assert name[|name| - |suffix|..] == suffix;
    }
  }

  lemma NotBlankAt(s: string, i: nat)
    requires i < |s| && !IsJavaWhitespace(s[i])
    ensures !IsBlank(s)
  {
  }

  /** The literals of the naming examples, kept apart from the naming
      proofs. */
  lemma SuffixSpelling()
    ensures !IsBlank("org.example") && !IsBlank("example")
    ensures HasSuffix("org.example", "." + "example")
  {
    NotBlankAt("org.example", 0);
    NotBlankAt("example", 0);
    assert "org.example"[3..] == "." + "example";
  }

  lemma AppendSpelling()
    ensures !IsBlank("org.example") && !IsBlank("widget")
    ensures "org.example" != "widget" && !HasSuffix("org.example", "." + "widget")
    ensures "org.example" + "." + "widget" == "org.example.widget"
  {
    NotBlankAt("org.example", 0);
    NotBlankAt("widget", 0);
    assert "org.example"[4..][0] != ("." + "widget")[0];
  }

  /** A groupId that already ends in "." + artifactId names the module. */
  lemma CreateNameSuffixExample()
    ensures CreateName("org.example", "example") == Ok("org.example")
  {
    SuffixSpelling();
  }

  /** Otherwise the artifactId is appended to the groupId. */
  lemma CreateNameAppendExample()
    ensures CreateName("org.example", "widget") == Ok("org.example.widget")
  {
    AppendSpelling();
  }

  // --- classification ---------------------------------------------------------

  /** Configured module i is the first whose match succeeds. */
  ghost predicate IsFirstRule(re: Engine, rules: seq<Module>, a: Artifact, i: int) {
    && 0 <= i < |rules|
    && Match(re, rules[i], a).result
    && forall j :: 0 <= j < i ==> !Match(re, rules[j], a).result
  }

  /** The loop over the configured modules in `add`, from position `from`
      on: the position of the first module that `fits`, if any. */
  function FirstRuleFrom(fits: Module -> bool, rules: seq<Module>, from: nat): (r: Option<nat>)
    requires from <= |rules|
    ensures r.Some? ==> && from <= r.value < |rules|
                        && fits(rules[r.value])
                        && forall j :: from <= j < r.value ==> !fits(rules[j])
    ensures r.None? ==> forall j :: from <= j < |rules| ==> !fits(rules[j])
    decreases |rules| - from
  {
    if from == |rules| then None
    else if fits(rules[from]) then Some(from)
    else FirstRuleFrom(fits, rules, from + 1)
  }

  /** Whether a configured module matches the artifact. */
  function Fits(re: Engine, a: Artifact): Module -> bool {
    m => Match(re, m, a).result
  }

  /** The module `add` assigns to a dependency it has not seen: the first
      matching configured module decides; a match with capture groups
      yields a new module named from the template, one without yields the
      configured module itself; with no match, a new module with the default
      name. */
  function Classify(re: Engine, rules: seq<Module>, d: Dependency): (r: Result<Module, Error>)
    ensures r.Ok? ==> r.value in rules || r.value == Named(r.value.name)
    ensures r.Err? ==> r.error in {BlankArgument("groupId"), BlankArgument("artifactId")}
  {
    var a := d.artifact;
    match FirstRuleFrom(Fits(re, a), rules, 0)
    case Some(i) =>
      var context := Match(re, rules[i], a);
      if HasGroupMatch(context) then Ok(Named(TranslateName(context, rules[i].name)))
      else Ok(rules[i])
    case None =>
      match CreateName(a.groupId, a.artifactId)
      case Ok(name) => Ok(Named(name))
      case Err(e) => Err(e)
  }

  lemma FirstRuleIsUnique(re: Engine, rules: seq<Module>, a: Artifact, i: int)
    requires IsFirstRule(re, rules, a, i)
    ensures FirstRuleFrom(Fits(re, a), rules, 0) == Some(i)
  {
  }

  /** The first matching module has capture groups: the dependency goes to a
      new module named by substituting the captures into that module's name
      template, with no slot. */
  lemma CapturingRuleSynthesisesModule(re: Engine, rules: seq<Module>, d: Dependency, i: int)
    requires IsFirstRule(re, rules, d.artifact, i)
    requires HasGroupMatch(Match(re, rules[i], d.artifact))
    ensures var context := Match(re, rules[i], d.artifact);
            && Classify(re, rules, d) == Ok(Named(TranslateName(context, rules[i].name)))
            && Classify(re, rules, d).value.name
               == Substitute(rules[i].name, Captures(context), |Captures(context)|)
            && Classify(re, rules, d).value.slot.None?
  {
    FirstRuleIsUnique(re, rules, d.artifact, i);
    TranslateNameSubstitutesGroups(Match(re, rules[i], d.artifact), rules[i].name);
  }

  /** The first matching module has no capture groups: the dependency goes
      to that configured module itself. */
  lemma LiteralRuleIsReused(re: Engine, rules: seq<Module>, d: Dependency, i: int)
    requires IsFirstRule(re, rules, d.artifact, i)
    requires !HasGroupMatch(Match(re, rules[i], d.artifact))
    ensures Classify(re, rules, d) == Ok(rules[i])
  {
    FirstRuleIsUnique(re, rules, d.artifact, i);
  }

  /** No configured module matches: the dependency goes to a new module with
      the default name of its coordinates and no slot, or the call fails when
      a coordinate is blank. */
  lemma UnmatchedFallsBackToDefaultName(re: Engine, rules: seq<Module>, d: Dependency)
    requires forall j :: 0 <= j < |rules| ==> !Match(re, rules[j], d.artifact).result
    ensures var name := CreateName(d.artifact.groupId, d.artifact.artifactId);
            && (name.Ok? ==> Classify(re, rules, d) == Ok(Named(name.value)))
            && (name.Err? ==> Classify(re, rules, d) == Err(name.error))
  {
  }

  /** Classification fails only when no module matches and a coordinate is
      blank. */
  lemma ClassifyFailsOnlyOnBlankCoordinates(re: Engine, rules: seq<Module>, d: Dependency)
    requires Classify(re, rules, d).Err?
    ensures forall j :: 0 <= j < |rules| ==> !Match(re, rules[j], d.artifact).result
    ensures IsBlank(d.artifact.groupId) || IsBlank(d.artifact.artifactId)
  {
  }

  // --- the aggregation state --------------------------------------------------

  /** The dependencies aggregated under one module identity, with the module
      instance stored first under that identity (a hash multimap keeps the
      first key it was given). */
  datatype Entry = Entry(representative: Module, members: set<Dependency>)

  /** The configured modules, the dependency-to-module memo, and the
      module-to-dependencies multimap keyed by module identity. */
  datatype ModuleMap = ModuleMap(
    rules: seq<Module>,
    memo: map<Dependency, Module>,
    entries: map<ModuleKey, Entry>)

  /** The memo and the multimap agree: each memoised dependency is listed
      under the identity of its module, each listed dependency is memoised
      with a module of that identity, and every entry is non-empty and keyed
      by its own module's identity. */
  ghost predicate Valid(s: ModuleMap) {
    && (forall d :: d in s.memo ==> Key(s.memo[d]) in s.entries && d in s.entries[Key(s.memo[d])].members)
    && (forall k :: k in s.entries ==> Key(s.entries[k].representative) == k && s.entries[k].members != {})
    && (forall k, d :: k in s.entries && d in s.entries[k].members ==> d in s.memo && Key(s.memo[d]) == k)
  }

  /** `new ModuleMap(modules)`, and with an empty list `new ModuleMap()`:
      nothing classified yet. */
  function Create(rules: seq<Module>): (s: ModuleMap)
    ensures Valid(s) && s.rules == rules
    ensures forall d :: d !in s.memo
    ensures forall k :: k !in s.entries
  {
    ModuleMap(rules, map[], map[])
  }

  /** `storeArtifact`: records the dependency under the module's identity,
      keeping the entry's first module instance, and memoises the module. */
  function Store(s: ModuleMap, m: Module, d: Dependency): (r: ModuleMap)
    ensures r.rules == s.rules && r.memo == s.memo[d := m]
    ensures Key(m) in r.entries
    ensures Key(m) in s.entries ==> r.entries[Key(m)] == s.entries[Key(m)].(members := s.entries[Key(m)].members + {d})
    ensures Key(m) !in s.entries ==> r.entries[Key(m)] == Entry(m, {d})
    ensures forall k :: k != Key(m) ==> (k in r.entries <==> k in s.entries)
    ensures forall k :: k != Key(m) && k in s.entries ==> r.entries[k] == s.entries[k]
    ensures Valid(s) && d !in s.memo ==> Valid(r)
  {
    var k := Key(m);
    var entry := if k in s.entries then s.entries[k].(members := s.entries[k].members + {d}) else Entry(m, {d});
    ModuleMap(s.rules, s.memo[d := m], s.entries[k := entry])
  }

  /** The outcome of `add`: the new state and the module returned. */
  datatype Added = Added(state: ModuleMap, owner: Module)

  /** A classification of dependencies, as the module scan of `add`
      computes it for fixed configured modules. */
  type Classification = Dependency -> Result<Module, Error>

  /** The classification by the given configured modules. */
  function Classifier(re: Engine, rules: seq<Module>): (classify: Classification)
    ensures forall d :: classify(d) == Classify(re, rules, d)
  {
    d => Classify(re, rules, d)
  }

  /** The body of `add` for a given classification: a dependency seen
      before returns its memoised module and leaves the state alone;
      otherwise it is classified and stored, and a failed classification
      leaves no trace. */
  function Insert(classify: Classification, s: ModuleMap, d: Dependency): (r: Result<Added, Error>)
    ensures d in s.memo ==> r == Ok(Added(s, s.memo[d]))
    ensures d !in s.memo ==> match classify(d)
                             case Ok(m) => r == Ok(Added(Store(s, m, d), m))
                             case Err(e) => r == Err(e)
    ensures r.Ok? ==> r.value.state.rules == s.rules
    ensures r.Ok? ==> r.value.state.memo == s.memo[d := r.value.owner]
    ensures Valid(s) && r.Ok? ==> Valid(r.value.state)
    ensures Valid(s) && r.Ok? ==> d in r.value.state.entries[Key(r.value.owner)].members
  {
    if d in s.memo then Ok(Added(s, s.memo[d]))
    else
      match classify(d)
      case Ok(m) => Ok(Added(Store(s, m, d), m))
      case Err(e) => Err(e)
  }

  /** `add`: the body above with the classification by the map's own
      configured modules. */
  function Add(re: Engine, s: ModuleMap, d: Dependency): (r: Result<Added, Error>)
    ensures d in s.memo ==> r == Ok(Added(s, s.memo[d]))
    ensures d !in s.memo ==> match Classify(re, s.rules, d)
                             case Ok(m) => r == Ok(Added(Store(s, m, d), m))
                             case Err(e) => r == Err(e)
    ensures r.Ok? ==> r.value.state.rules == s.rules
    ensures r.Ok? ==> r.value.state.memo == s.memo[d := r.value.owner]
    ensures Valid(s) && r.Ok? ==> Valid(r.value.state)
    ensures Valid(s) && r.Ok? ==> d in r.value.state.entries[Key(r.value.owner)].members
  {
    Insert(Classifier(re, s.rules), s, d)
  }

  /** Adding a dependency a second time returns the same module and changes
      nothing. */
  lemma AddIsIdempotent(re: Engine, s: ModuleMap, d: Dependency)
    requires Add(re, s, d).Ok?
    ensures var once := Add(re, s, d).value;
            Add(re, once.state, d) == Ok(Added(once.state, once.owner))
  {
  }

  /** In a consistent state every memoised dependency is listed under exactly
      one module identity: that of its memoised module. */
  lemma StoredUnderExactlyOneModule(s: ModuleMap, d: Dependency)
    requires Valid(s) && d in s.memo
    ensures Key(s.memo[d]) in s.entries
    ensures forall k :: k in s.entries && d in s.entries[k].members <==> k == Key(s.memo[d])
  {
  }

  /** `getModule`: the memoised module if there is one, otherwise whatever
      `add` does; so it always agrees with `add`. */
  function GetModule(re: Engine, s: ModuleMap, d: Dependency): (r: Result<Added, Error>)
    ensures r == Add(re, s, d)
  {
    if d in s.memo then Ok(Added(s, s.memo[d])) else Add(re, s, d)
  }

  /** `toMap`: one entry per module identity that holds dependencies, keyed by
      the module instance first stored under it. Order is not modelled. */
  function ToMap(s: ModuleMap): (r: map<Module, set<Dependency>>)
    requires Valid(s)
    ensures forall m :: m in r ==> Key(m) in s.entries && s.entries[Key(m)].representative == m
    ensures forall m :: m in r ==> r[m] == s.entries[Key(m)].members
    ensures forall k :: k in s.entries ==> s.entries[k].representative in r
  {
    map k | k in s.entries :: s.entries[k].representative := s.entries[k].members
  }

  /** The snapshot partitions the classified dependencies: every entry is
      non-empty, no two entries share a module identity, every memoised
      dependency is listed, and none is listed twice. */
  lemma ToMapPartitionsDependencies(s: ModuleMap)
    requires Valid(s)
    ensures var r := ToMap(s);
            && (forall m :: m in r ==> r[m] != {})
            && (forall m1, m2 :: m1 in r && m2 in r && Equals(m1, m2) ==> m1 == m2)
            && (forall d :: d in s.memo <==> exists m :: m in r && d in r[m])
            && (forall d, m1, m2 :: m1 in r && m2 in r && d in r[m1] && d in r[m2] ==> m1 == m2)
  {
    var r := ToMap(s);
    forall d | d in s.memo
      ensures exists m :: m in r && d in r[m]
    {
      var m := s.entries[Key(s.memo[d])].representative;
      assert m in r && d in r[m];
    }
    forall d, m1, m2 | m1 in r && m2 in r && d in r[m1] && d in r[m2]
      ensures m1 == m2
    {
      assert Key(m1) == Key(s.memo[d]) == Key(m2);
    }
  }

  /** The dependencies of a list, as a set. */
  function Elements(deps: seq<Dependency>): set<Dependency> {
    set d | d in deps
  }

  /** The loop of the convenience constructor: insert each dependency in
      turn, stopping at the first failure. On success the modules are kept,
      the memo gains exactly the listed dependencies, and earlier
      assignments stay. */
  function AddAll(classify: Classification, s: ModuleMap, deps: seq<Dependency>): (r: Result<ModuleMap, Error>)
    ensures r.Ok? ==> r.value.rules == s.rules
    ensures r.Ok? ==> r.value.memo.Keys == s.memo.Keys + Elements(deps)
    ensures r.Ok? ==> forall d :: d in s.memo ==> r.value.memo[d] == s.memo[d]
    decreases |deps|
  {
    if |deps| == 0 then Ok(s)
    else
      match Insert(classify, s, deps[0])
      case Err(e) => Err(e)
      case Ok(step) =>
        assert step.state.memo.Keys == s.memo.Keys + {deps[0]};
        AddAll(classify, step.state, deps[1..])
  }

  /** Adding a list keeps a consistent map consistent. */
  lemma {:induction false} AddAllPreservesValid(classify: Classification, s: ModuleMap, deps: seq<Dependency>)
    requires Valid(s)
    ensures AddAll(classify, s, deps).Ok? ==> Valid(AddAll(classify, s, deps).value)
    decreases |deps|
  {
    if |deps| > 0 && Insert(classify, s, deps[0]).Ok? {
      AddAllPreservesValid(classify, Insert(classify, s, deps[0]).value.state, deps[1..]);
    }
  }

  /** Adding a list fails only at a listed dependency that was not yet
      memoised and whose classification fails. */
  lemma {:induction false} AddAllFailsOnlyOnClassify(classify: Classification, s: ModuleMap, deps: seq<Dependency>)
    ensures AddAll(classify, s, deps).Err? ==>
      exists d :: d in deps && d !in s.memo && classify(d).Err?
    decreases |deps|
  {
    if |deps| > 0 {
      var d0 := deps[0];
      if Insert(classify, s, d0).Err? {
        assert d0 in deps && d0 !in s.memo && classify(d0).Err?;
      } else {
        var step := Insert(classify, s, d0).value;
        AddAllFailsOnlyOnClassify(classify, step.state, deps[1..]);
        if AddAll(classify, s, deps).Err? {
          var d :| d in deps[1..] && d !in step.state.memo && classify(d).Err?;
          assert d in deps && d !in s.memo && classify(d).Err?;
        }
      }
    }
  }

  /** Adding a list succeeds when every listed dependency that is not yet
      memoised can be classified. */
  lemma {:induction false} AddAllSucceedsWhenAllClassify(classify: Classification, s: ModuleMap, deps: seq<Dependency>)
    requires forall d :: d in deps && d !in s.memo ==> classify(d).Ok?
    ensures AddAll(classify, s, deps).Ok?
    decreases |deps|
  {
    if |deps| > 0 {
      var step := Insert(classify, s, deps[0]).value;
      forall d | d in deps[1..] && d !in step.state.memo
        ensures classify(d).Ok?
      {
        assert d in deps && d !in s.memo;
      }
      AddAllSucceedsWhenAllClassify(classify, step.state, deps[1..]);
    }
  }

  /** Every listed dependency that was not memoised before ends up memoised
      with the module its classification gives. */
  lemma {:induction false} AddAllAssignsClassification(classify: Classification, s: ModuleMap, deps: seq<Dependency>)
    ensures var r := AddAll(classify, s, deps);
            r.Ok? ==> forall d :: d in deps && d !in s.memo ==>
                        classify(d).Ok? && r.value.memo[d] == classify(d).value
    decreases |deps|
  {
    if |deps| > 0 && Insert(classify, s, deps[0]).Ok? {
      var step := Insert(classify, s, deps[0]).value;
      AddAllAssignsClassification(classify, step.state, deps[1..]);
      var r := AddAll(classify, s, deps);
      forall d | r.Ok? && d in deps && d !in s.memo
        ensures classify(d).Ok? && r.value.memo[d] == classify(d).value
      {
        if d != deps[0] {
          assert d in deps[1..] && d !in step.state.memo;
        }
      }
    }
  }

  /** `new ModuleMap(modules, dependencies)`: a null module list counts as
      empty; every dependency is classified, each ends up under exactly one
      module, and a failure names a dependency that could not be classified. */
  function Build(re: Engine, modules: Option<seq<Module>>, deps: seq<Dependency>): (r: Result<ModuleMap, Error>)
    ensures r.Ok? ==> Valid(r.value) && r.value.rules == modules.GetOr([])
    ensures r.Ok? ==> r.value.memo.Keys == Elements(deps)
    ensures r.Err? ==> exists d :: d in deps && Classify(re, modules.GetOr([]), d).Err?
  {
    var rules := modules.GetOr([]);
    AddAllPreservesValid(Classifier(re, rules), Create(rules), deps);
    AddAllFailsOnlyOnClassify(Classifier(re, rules), Create(rules), deps);
    AddAll(Classifier(re, rules), Create(rules), deps)
  }

  /** The constructor puts every dependency under the module that
      classification by the configured modules assigns it, and it fails
      exactly when some dependency cannot be classified. */
  lemma BuildAssignsClassification(re: Engine, modules: Option<seq<Module>>, deps: seq<Dependency>)
    ensures var r := Build(re, modules, deps);
            && (r.Ok? ==> forall d :: d in deps ==>
                  Classify(re, modules.GetOr([]), d).Ok?
                  && r.value.memo[d] == Classify(re, modules.GetOr([]), d).value)
            && (r.Err? <==> exists d :: d in deps && Classify(re, modules.GetOr([]), d).Err?)
  {
    var rules := modules.GetOr([]);
    var classify := Classifier(re, rules);
    AddAllAssignsClassification(classify, Create(rules), deps);
    if forall d :: d in deps ==> classify(d).Ok? {
      AddAllSucceedsWhenAllClassify(classify, Create(rules), deps);
    }
  }
}

=== FILE: modules.dfy ===
/** A configured module: a name template, an optional slot, ordered include
    and exclude rules, and payload (base path, properties, extra module
    dependencies) that classification carries along but never reads. Its
    identity is the pair (name, slot). */
module Modules {
  import opened Wrappers
  import opened Regex
  import opened Artifacts
  import opened MatchContexts
  import opened Clusions

  /** An extra module dependency declared in the configuration; only carried
      as payload here. */
  datatype ModuleDependency = ModuleDependency(name: string, slot: Option<string>)

  datatype Module = Module(
    name: string,
    slot: Option<string>,
    basePath: Option<string>,
    includes: Option<seq<Clusion>>,
    excludes: Option<seq<Clusion>>,
    properties: Option<map<string, string>>,
    dependencies: Option<seq<ModuleDependency>>)

  /** The identity `equals` and `hashCode` use. */
  datatype ModuleKey = ModuleKey(name: string, slot: Option<string>)

  function Key(m: Module): ModuleKey {
    ModuleKey(m.name, m.slot)
  }

  /** `new Module()` followed by `setName`: a module with a name and nothing
      else, as the engine synthesises them. */
  function Named(name: string): (m: Module)
    ensures m.name == name && m.slot.None?
    ensures m.includes.None? && m.excludes.None? && m.dependencies.None?
  {
    Module(name, None, None, None, None, None, None)
  }

  /** `hasDependencies`: true exactly when there is some extra dependency to
      list. */
  predicate HasDependencies(m: Module): (b: bool)
    ensures b <==> exists d :: m.dependencies.Some? && d in m.dependencies.value
  {
    match m.dependencies
    case None => false
    case Some(ds) =>
      assert |ds| > 0 ==> ds[0] in ds;
      |ds| > 0
  }

  // --- identity ---------------------------------------------------------------

  /** `equals`: same name and same slot, whatever the rules and payload. */
  predicate Equals(a: Module, b: Module): (eq: bool)
    ensures eq <==> Key(a) == Key(b)
  {
    a.name == b.name && a.slot == b.slot
  }

  /** Equality is an equivalence relation, it coincides with equality of
      keys, and it ignores everything except name and slot. */
  lemma EqualsIsKeyEquality(a: Module, b: Module, c: Module)
    ensures Equals(a, a)
    ensures Equals(a, b) ==> Equals(b, a)
    ensures Equals(a, b) && Equals(b, c) ==> Equals(a, c)
    ensures Equals(a, b) <==> Key(a) == Key(b)
    ensures Equals(a, a.(basePath := b.basePath, includes := b.includes, excludes := b.excludes,
                        properties := b.properties, dependencies := b.dependencies))
  {
  }

  const TwoTo32: int := 0x1_0000_0000

  /** The 32-bit two's-complement value of x, as Java's int arithmetic
      wraps it. */
  function Int32(x: int): (r: int)
    ensures -0x8000_0000 <= r < 0x8000_0000
    ensures (r - x) % TwoTo32 == 0
  {
    var u := x % TwoTo32;
    if u < 0x8000_0000 then u else u - TwoTo32
  }

  /** The UTF-16 code units of one character. */
  function Utf16(c: char): seq<int> {
    var v := c as int;
    if v < 0x1_0000 then [v]
    else [0xD800 + (v - 0x1_0000) / 0x400, 0xDC00 + (v - 0x1_0000) % 0x400]
  }

  /** `String.hashCode` before the final wrap: the polynomial of base 31
      over the UTF-16 code units, computed modulo 2^32. */
  function UnitsHash(units: seq<int>): int
    decreases |units|
  {
    if |units| == 0 then 0
    else (31 * UnitsHash(units[..|units| - 1]) + units[|units| - 1]) % TwoTo32
  }

  function Utf16Units(s: string): seq<int>
    decreases |s|
  {
    if |s| == 0 then [] else Utf16Units(s[..|s| - 1]) + Utf16(s[|s| - 1])
  }

  /** `String.hashCode`. */
  function StringHash(s: string): int {
    Int32(UnitsHash(Utf16Units(s)))
  }

  /** `ObjectUtils.hashCode`: 0 for null. */
  function NullableHash(s: Option<string>): int {
    match s
    case None => 0
    case Some(v) => StringHash(v)
  }

  /** `hashCode`: 17, then 37 * result + hash for name and for slot, in int
      arithmetic. */
  function HashCode(m: Module): (h: int)
    ensures -0x8000_0000 <= h < 0x8000_0000
  {
    var afterName := Int32(37 * 17 + NullableHash(Some(m.name)));
    Int32(37 * afterName + NullableHash(m.slot))
  }

  /** Equal modules have equal hash codes, since the hash reads only name
      and slot. */
  lemma EqualModulesHashAlike(a: Module, b: Module)
    requires Equals(a, b)
    ensures HashCode(a) == HashCode(b)
  {
  }

  // --- matching ---------------------------------------------------------------

  /** Clusion i is the first in the list to match the artifact. */
  ghost predicate IsFirstMatch(re: Engine, cs: seq<Clusion>, a: Artifact, i: int) {
    && 0 <= i < |cs|
    && Matches(re, cs[i], a).result
    && forall j :: 0 <= j < i ==> !Matches(re, cs[j], a).result
  }

  ghost predicate AnyMatches(re: Engine, cs: seq<Clusion>, a: Artifact) {
    exists i :: 0 <= i < |cs| && Matches(re, cs[i], a).result
  }

  /** The loop of `cludes` from position `from` on, with `outcome` giving
      each clusion's context: the context of the first clusion whose
      context is matched, or a plain false when there is none. */
  function FirstMatchFrom(outcome: Clusion -> MatchContext, cs: seq<Clusion>, from: nat): (r: MatchContext)
    requires from <= |cs|
    ensures r.result <==> exists i :: from <= i < |cs| && outcome(cs[i]).result
    ensures r.result ==> exists i :: from <= i < |cs| && r == outcome(cs[i])
                                     && forall j :: from <= j < i ==> !outcome(cs[j]).result
    ensures !r.result ==> r == OfResult(false)
    decreases |cs| - from
  {
    if from == |cs| then OfResult(false)
    else
      var context := outcome(cs[from]);
      if context.result then context else FirstMatchFrom(outcome, cs, from + 1)
  }

  /** The context each clusion gives the artifact. */
  function Outcome(re: Engine, a: Artifact): Clusion -> MatchContext {
    c => Matches(re, c, a)
  }

  function Rules(cs: Option<seq<Clusion>>): seq<Clusion> {
    cs.GetOr([])
  }

  /** `cludes`: first-match-wins over a possibly null list. */
  function Cludes(re: Engine, cs: Option<seq<Clusion>>, a: Artifact): (r: MatchContext)
    ensures r.result <==> AnyMatches(re, Rules(cs), a)
    ensures r.result ==> exists i :: IsFirstMatch(re, Rules(cs), a, i) && r == Matches(re, Rules(cs)[i], a)
    ensures !r.result ==> r == OfResult(false)
  {
    FirstMatchFrom(Outcome(re, a), Rules(cs), 0)
  }

  /** `match`: the module matches iff some include matches and no exclude
      does. When an include matched, the context carries that first
      include's matcher, even if an exclude then vetoes; otherwise it is a
      plain false. */
  function Match(re: Engine, m: Module, a: Artifact): (r: MatchContext)
    ensures r.result <==> AnyMatches(re, Rules(m.includes), a) && !AnyMatches(re, Rules(m.excludes), a)
    ensures !AnyMatches(re, Rules(m.includes), a) ==> r == OfResult(false)
    ensures AnyMatches(re, Rules(m.includes), a) ==>
      exists i :: IsFirstMatch(re, Rules(m.includes), a, i)
                  && r.matcher == Matches(re, Rules(m.includes)[i], a).matcher
  {
    var includesContext := Cludes(re, m.includes, a);
    var excludesContext := Cludes(re, m.excludes, a);
    var result := includesContext.result && !excludesContext.result;
    if includesContext.result then Derived(result, Some(includesContext))
    else OfResult(result)
  }

  /** A module without include rules never matches. */
  lemma NoIncludesNeverMatch(re: Engine, m: Module, a: Artifact)
    requires m.includes.None? || m.includes.value == []
    ensures Match(re, m, a) == OfResult(false)
  {
  }

  /** An exclude match overrides an include match, and the vetoed context
      exposes no group match. */
  lemma ExcludeOverridesInclude(re: Engine, m: Module, a: Artifact, i: nat, j: nat)
    requires i < |Rules(m.includes)| && Matches(re, Rules(m.includes)[i], a).result
    requires j < |Rules(m.excludes)| && Matches(re, Rules(m.excludes)[j], a).result
    ensures !Match(re, m, a).result
    ensures !HasGroupMatch(Match(re, m, a))
  {
  }

  /** First match wins: when include i is the first to match and no exclude
      matches, the module matches and its name translates with include i's
      captures, not a later include's. */
  lemma FirstIncludeProvidesCaptures(re: Engine, m: Module, a: Artifact, i: nat)
    requires IsFirstMatch(re, Rules(m.includes), a, i)
    requires !AnyMatches(re, Rules(m.excludes), a)
    ensures Match(re, m, a).result
    ensures Match(re, m, a).matcher == Matches(re, Rules(m.includes)[i], a).matcher
    ensures forall name :: TranslateName(Match(re, m, a), name)
                           == TranslateName(Matches(re, Rules(m.includes)[i], a), name)
  {
    var inc := Rules(m.includes);
    var r := Match(re, m, a);
    var k :| IsFirstMatch(re, inc, a, k) && r.matcher == Matches(re, inc[k], a).matcher;
    assert k == i;
  }
}

=== FILE: regex.dfy ===
/** The regular-expression engine (`java.util.regex`) as an uninterpreted
    component. Its syntax and semantics are not modelled: a pattern is an
    opaque value, and compiling and whole-input matching are functions the
    caller supplies. */
module Regex {
  import opened Wrappers

  /** A compiled `java.util.regex.Pattern`. */
  type Pattern(==, !new)

  datatype EngineFunctions = EngineFunctions(
    /** `Pattern.compile`: None when the expression has a syntax error. */
    compile: string -> Option<Pattern>,
    /** `Matcher.groupCount`: the number of capturing groups of a pattern. */
    groupCount: Pattern -> nat,
    /** `Matcher.matches`: whether the pattern matches the WHOLE input, and
        if so the text of groups 1..groupCount in order. */
    fullMatch: (Pattern, string) -> Option<seq<string>>)

  /** A successful match reports one capture per capturing group. Groups
      that did not take part in the match are not modelled (their text would
      be null in Java); every capture is a string. */
  ghost predicate CapturesFitGroups(e: EngineFunctions) {
    forall p, s :: e.fullMatch(p, s).Some? ==> |e.fullMatch(p, s).value| == e.groupCount(p)
  }

  type Engine = e: EngineFunctions | CapturesFitGroups(e)
    witness EngineFunctions(_ => None, _ => 0, (_, _) => None)

  datatype MatcherState = MatcherState(groupCount: nat, captures: Option<seq<string>>)

  /** A `java.util.regex.Matcher` after `matches()` has been called: the
      group count of its pattern, and the captures when the whole input
      matched. */
  type Matcher = m: MatcherState | m.captures.Some? ==> |m.captures.value| == m.groupCount
    witness MatcherState(0, None)

  predicate Matched(m: Matcher) {
    m.captures.Some?
  }

  /** `pattern.matcher(input)` followed by `matches()`. */
  function MatchWhole(re: Engine, p: Pattern, input: string): (m: Matcher)
    ensures Matched(m) <==> re.fullMatch(p, input).Some?
    ensures m.groupCount == re.groupCount(p)
  {
    MatcherState(re.groupCount(p), re.fullMatch(p, input))
  }
}

=== FILE: scenarios.dfy ===
/** Worked classifications. The regular-expression engine stays abstract:
    each scenario states only what the engine answers for the inputs it
    sees. */
module Scenarios {
  import opened Wrappers
  import opened Strings
  import opened Regex
  import opened Artifacts
  import opened MatchContexts
  import opened Clusions
  import opened Modules
  import opened ModuleMaps

  function Dep(groupId: string, artifactId: string): Dependency {
    Dependency(Artifact(groupId, artifactId, "1.0", "", "jar"), "compile", false)
  }

  /** The include rule: artifactId "acme-(.*)", no groupId. */
  function AcmeInclusion(re: Engine): Clusion {
    SetArtifactId(re, NewClusion(), Some("acme-(.*)"))
  }

  /** A module named "acme.$1" including every artifactId "acme-(.*)". */
  function AcmeRule(re: Engine): Module {
    Module("acme.$1", None, None, Some([AcmeInclusion(re)]), None, None, None)
  }

  /** An engine that compiles "acme-(.*)" to a one-group pattern capturing
      the text after "acme-" for the two acme artifacts, and rejects
      "other". */
  ghost predicate AcmeEngine(re: Engine, p: Pattern) {
    && re.compile("acme-(.*)") == Some(p)
    && re.groupCount(p) == 1
    && re.fullMatch(p, "acme-core") == Some(["core"])
    && re.fullMatch(p, "acme-utils") == Some(["utils"])
    && re.fullMatch(p, "other") == None
  }

  lemma AcmeInclusionCompiled(re: Engine, p: Pattern)
    requires AcmeEngine(re, p)
    ensures AcmeInclusion(re) == Clusion(None, None, Some("acme-(.*)"), Some(p))
  {
    NotBlankAt("acme-(.*)", 0);
  }

  /** The rule matches an acme artifact and exposes its one capture. */
  lemma AcmeRuleMatches(re: Engine, p: Pattern, artifactId: string, capture: string)
    requires AcmeEngine(re, p) && re.fullMatch(p, artifactId) == Some([capture])
    ensures Match(re, AcmeRule(re), Dep("any", artifactId).artifact) == OfMatcher(MatcherState(1, Some([capture])))
  {
    AcmeInclusionCompiled(re, p);
    var a := Dep("any", artifactId).artifact;
    assert Matches(re, AcmeInclusion(re), a) == OfMatcher(MatcherState(1, Some([capture])));
    assert Cludes(re, AcmeRule(re).includes, a) == OfMatcher(MatcherState(1, Some([capture])));
  }

  /** The template with its placeholder filled in. */
  lemma AcmeName(capture: string)
    ensures ReplaceAll("acme.$1", "$1", capture) == "acme." + capture
  {
    assert forall i :: 0 <= i < |"acme."| ==> "acme."[i] != '$';
    assert "acme." + "$1" == "acme.$1";
    ReplaceAfterFreePrefix("acme.", "$1", capture);
  }

  /** A capture names a new module after the template. */
  lemma AcmeClassified(re: Engine, p: Pattern, artifactId: string, capture: string)
    requires AcmeEngine(re, p) && re.fullMatch(p, artifactId) == Some([capture])
    ensures Classify(re, [AcmeRule(re)], Dep("any", artifactId)) == Ok(Named("acme." + capture))
  {
    AcmeRuleMatches(re, p, artifactId, capture);
    var context := Match(re, AcmeRule(re), Dep("any", artifactId).artifact);
    assert IsFirstRule(re, [AcmeRule(re)], Dep("any", artifactId).artifact, 0);
    CapturingRuleSynthesisesModule(re, [AcmeRule(re)], Dep("any", artifactId), 0);
    assert Captures(context) == [capture];
    assert Placeholder(1) == "$1";
    AcmeName(capture);
  }

  /** Facts about the literals of the scenario, kept apart from the
      classification proofs. */
  lemma AcmeSpellings()
    ensures "acme." + "core" == "acme.core"
    ensures "acme." + "utils" == "acme.utils"
    ensures "any" + "." + "other" == "any.other"
    ensures !HasSuffix("any", ".other")
    ensures !IsBlank("any") && !IsBlank("other")
  {
    NotBlankAt("any", 0);
    NotBlankAt("other", 0);
  }

  lemma AcmeDistinct()
    ensures "acme-core" != "acme-utils" && "other" != "acme-core" && "other" != "acme-utils"
    ensures "acme.core" != "acme.utils" && "acme.core" != "any.other" && "acme.utils" != "any.other"
  {
    assert "acme-core"[5] != "acme-utils"[5];
    assert "other"[0] != "acme-core"[0];
    assert "acme.core"[5] != "acme.utils"[5];
    assert "acme.core"[1] != "any.other"[1];
    assert "acme.utils"[1] != "any.other"[1];
  }

  lemma AcmeCoreClassified(re: Engine, p: Pattern)
    requires AcmeEngine(re, p)
    ensures Classify(re, [AcmeRule(re)], Dep("any", "acme-core")) == Ok(Named("acme.core"))
  {
    AcmeClassified(re, p, "acme-core", "core");
    AcmeSpellings();
  }

  lemma AcmeUtilsClassified(re: Engine, p: Pattern)
    requires AcmeEngine(re, p)
    ensures Classify(re, [AcmeRule(re)], Dep("any", "acme-utils")) == Ok(Named("acme.utils"))
  {
    AcmeClassified(re, p, "acme-utils", "utils");
    AcmeSpellings();
  }

  /** No match: the default name of the coordinates. */
  lemma OtherClassified(re: Engine, p: Pattern)
    requires AcmeEngine(re, p)
    ensures Classify(re, [AcmeRule(re)], Dep("any", "other")) == Ok(Named("any.other"))
  {
    assert !Matches(re, Rules(AcmeRule(re).includes)[0], Dep("any", "other").artifact).result;
    assert !Match(re, AcmeRule(re), Dep("any", "other").artifact).result;
    AcmeSpellings();
  }

  function State1(re: Engine): ModuleMap {
    Store(Create([AcmeRule(re)]), Named("acme.core"), Dep("any", "acme-core"))
  }

  function State2(re: Engine): ModuleMap {
    Store(State1(re), Named("acme.utils"), Dep("any", "acme-utils"))
  }

  function State3(re: Engine): ModuleMap {
    Store(State2(re), Named("any.other"), Dep("any", "other"))
  }

  lemma AddCore(re: Engine, p: Pattern)
    requires AcmeEngine(re, p)
    ensures Add(re, Create([AcmeRule(re)]), Dep("any", "acme-core")) == Ok(Added(State1(re), Named("acme.core")))
  {
    AcmeCoreClassified(re, p);
  }

  /** Each dependency is new when it is added. */
  lemma NotYetAdded(re: Engine)
    ensures State1(re).rules == State2(re).rules == [AcmeRule(re)]
    ensures Dep("any", "acme-utils") !in State1(re).memo
    ensures Dep("any", "other") !in State2(re).memo
  {
    AcmeDistinct();
  }

  lemma AddUtils(re: Engine, p: Pattern)
    requires AcmeEngine(re, p)
    ensures Add(re, State1(re), Dep("any", "acme-utils")) == Ok(Added(State2(re), Named("acme.utils")))
  {
    AcmeUtilsClassified(re, p);
    NotYetAdded(re);
  }

  lemma AddOther(re: Engine, p: Pattern)
    requires AcmeEngine(re, p)
    ensures Add(re, State2(re), Dep("any", "other")) == Ok(Added(State3(re), Named("any.other")))
  {
    OtherClassified(re, p);
    NotYetAdded(re);
  }

  /** The three dependencies of the scenario, in resolution order. */
  function AcmeDeps(): seq<Dependency> {
    [Dep("any", "acme-core"), Dep("any", "acme-utils"), Dep("any", "other")]
  }

  /** One step of adding a list. */
  lemma AddAllCons(classify: Classification, s: ModuleMap, deps: seq<Dependency>, s': ModuleMap, m: Module)
    requires |deps| > 0 && Insert(classify, s, deps[0]) == Ok(Added(s', m))
    ensures AddAll(classify, s, deps) == AddAll(classify, s', deps[1..])
  {
  }

  /** Adding three dependencies one by one is what adding the list does. */
  lemma AddThree(classify: Classification, s0: ModuleMap, s1: ModuleMap, s2: ModuleMap, s3: ModuleMap,
                 d1: Dependency, d2: Dependency, d3: Dependency,
                 m1: Module, m2: Module, m3: Module)
    requires Insert(classify, s0, d1) == Ok(Added(s1, m1))
    requires Insert(classify, s1, d2) == Ok(Added(s2, m2))
    requires Insert(classify, s2, d3) == Ok(Added(s3, m3))
    ensures AddAll(classify, s0, [d1, d2, d3]) == Ok(s3)
  {
    var deps := [d1, d2, d3];
    assert deps[1..][1..][1..] == [];
    AddAllCons(classify, s0, deps, s1, m1);
    AddAllCons(classify, s1, deps[1..], s2, m2);
    AddAllCons(classify, s2, deps[1..][1..], s3, m3);
  }

  lemma AcmeAddAll(re: Engine, p: Pattern)
    requires AcmeEngine(re, p)
    ensures AddAll(Classifier(re, [AcmeRule(re)]), Create([AcmeRule(re)]), AcmeDeps()) == Ok(State3(re))
  {
    AddCore(re, p);
    AddUtils(re, p);
    AddOther(re, p);
    AddThree(Classifier(re, [AcmeRule(re)]), Create([AcmeRule(re)]), State1(re), State2(re), State3(re),
             Dep("any", "acme-core"), Dep("any", "acme-utils"), Dep("any", "other"),
             Named("acme.core"), Named("acme.utils"), Named("any.other"));
  }

  lemma AcmeBuild(re: Engine, p: Pattern)
    requires AcmeEngine(re, p)
    ensures Build(re, Some([AcmeRule(re)]), AcmeDeps()) == Ok(State3(re))
  {
    AcmeAddAll(re, p);
  }

  /** The aggregation the scenario ends with. */
  function AcmeEntryMap(): map<ModuleKey, Entry> {
    map[ModuleKey("acme.core", None) := Entry(Named("acme.core"), {Dep("any", "acme-core")}),
        ModuleKey("acme.utils", None) := Entry(Named("acme.utils"), {Dep("any", "acme-utils")}),
        ModuleKey("any.other", None) := Entry(Named("any.other"), {Dep("any", "other")})]
  }

  lemma AcmeEntries(re: Engine)
    ensures State3(re).entries == AcmeEntryMap()
  {
    AcmeDistinct();
  }

  lemma AcmeValid(re: Engine)
    ensures Valid(State3(re))
  {
    AcmeDistinct();
    assert Valid(State1(re));
    assert Valid(State2(re));
  }

  /** The pass builds a consistent map holding the expected aggregation. */
  lemma AcmeBuilt(re: Engine, p: Pattern)
    requires AcmeEngine(re, p)
    ensures var r := Build(re, Some([AcmeRule(re)]), AcmeDeps());
            r.Ok? && Valid(r.value) && r.value.entries == AcmeEntryMap()
  {
    AcmeBuild(re, p);
    AcmeEntries(re);
    AcmeValid(re);
  }

  /** The snapshot of any consistent map with that aggregation. */
  lemma AcmeSnapshot(s: ModuleMap)
    requires Valid(s) && s.entries == AcmeEntryMap()
    ensures ToMap(s) == map[Named("acme.core") := {Dep("any", "acme-core")},
                            Named("acme.utils") := {Dep("any", "acme-utils")},
                            Named("any.other") := {Dep("any", "other")}]
  {
    var core, utils, other := Named("acme.core"), Named("acme.utils"), Named("any.other");
    var expected := map[core := {Dep("any", "acme-core")},
                        utils := {Dep("any", "acme-utils")},
                        other := {Dep("any", "other")}];
    var r := ToMap(s);
    assert s.entries[Key(core)] == Entry(core, {Dep("any", "acme-core")});
    assert s.entries[Key(utils)] == Entry(utils, {Dep("any", "acme-utils")});
    assert s.entries[Key(other)] == Entry(other, {Dep("any", "other")});
    forall m | m in r
      ensures m in expected
    {
      assert Key(m) in s.entries && s.entries[Key(m)].representative == m;
    }
    assert r.Keys == expected.Keys;
  }

  /** The whole pass: two modules synthesised from the template and one
      default module, each holding its one dependency. */
  lemma AcmeScenario(re: Engine, p: Pattern)
    requires AcmeEngine(re, p)
    ensures var r := Build(re, Some([AcmeRule(re)]), AcmeDeps());
            && r.Ok?
            && ToMap(r.value) == map[Named("acme.core") := {Dep("any", "acme-core")},
                                     Named("acme.utils") := {Dep("any", "acme-utils")},
                                     Named("any.other") := {Dep("any", "other")}]
  {
    AcmeBuilt(re, p);
    AcmeSnapshot(Build(re, Some([AcmeRule(re)]), AcmeDeps()).value);
  }
}

=== FILE: strings.dfy ===
/** The Java string operations the classification engine relies on:
    blankness as commons-lang `StringUtils.isBlank` defines it, prefix and
    suffix tests, decimal rendering of an `int`, and `String.replace` on a
    literal target. */
module Strings {

  /** `Character.isWhitespace`: the ASCII controls TAB..CR and FS..US, and
      the Unicode space, line and paragraph separators except the no-break
      spaces U+00A0, U+2007 and U+202F. The separators are those of Unicode
      6.3 and later (JDK 9 onwards); the Java 7 and 8 runtimes also count
      U+180E MONGOLIAN VOWEL SEPARATOR, which is left out here. */
  predicate IsJavaWhitespace(c: char) {
    || ('\t' <= c <= '\r')
    || ('\U{1C}' <= c <= '\U{1F}')
    || c == ' '
    || c == '\U{1680}'
    || ('\U{2000}' <= c <= '\U{2006}')
    || ('\U{2008}' <= c <= '\U{200A}')
    || c == '\U{2028}' || c == '\U{2029}'
    || c == '\U{205F}' || c == '\U{3000}'
  }

  /** `StringUtils.isBlank` on a non-null string: empty or whitespace only. */
  predicate IsBlank(s: string): (blank: bool)
    ensures |s| == 0 ==> blank
    ensures blank <==> forall c :: c in s ==> IsJavaWhitespace(c)
  {
    forall i :: 0 <= i < |s| ==> IsJavaWhitespace(s[i])
  }

  predicate HasPrefix(s: string, prefix: string) {
    |prefix| <= |s| && s[..|prefix|] == prefix
  }

  /** `String.endsWith`. */
  predicate HasSuffix(s: string, suffix: string) {
    |suffix| <= |s| && s[|s| - |suffix|..] == suffix
  }

  // --- decimal rendering ----------------------------------------------------

  predicate IsDigit(c: char) {
    '0' <= c <= '9'
  }

  function DigitChar(d: nat): (c: char)
    requires d < 10
    ensures IsDigit(c) && c as int - '0' as int == d
  {
    ('0' as int + d) as char
  }

  function DigitValue(c: char): (d: nat)
    requires IsDigit(c)
    ensures d < 10
  {
    c as int - '0' as int
  }

  /** The decimal text Java produces for `"" + n` when n is non-negative. */
  function DecimalString(n: nat): (r: string)
    ensures |r| > 0
    ensures forall i :: 0 <= i < |r| ==> IsDigit(r[i])
    decreases n
  {
    if n < 10 then [DigitChar(n)] else DecimalString(n / 10) + [DigitChar(n % 10)]
  }

  /** The number a non-empty run of decimal digits denotes. */
  function DecimalValue(s: string): nat
    requires forall i :: 0 <= i < |s| ==> IsDigit(s[i])
    decreases |s|
  {
    if |s| == 0 then 0
    else 10 * DecimalValue(s[..|s| - 1]) + DigitValue(s[|s| - 1])
  }

  /** Reading back the rendered digits gives the number again: the
      rendering is the decimal notation of n. */
  lemma {:induction false} DecimalRoundTrip(n: nat)
    ensures DecimalValue(DecimalString(n)) == n
    decreases n
  {
    if n >= 10 {
      DecimalRoundTrip(n / 10);
      var s := DecimalString(n);
      assert s[..|s| - 1] == DecimalString(n / 10);
    }
  }

  // --- literal replacement ----------------------------------------------------

  /** `target` occurs in `s` starting at index i. */
  predicate OccursAt(s: string, target: string, i: int) {
    0 <= i && i + |target| <= |s| && s[i..i + |target|] == target
  }

  ghost predicate Occurs(s: string, target: string) {
    exists i :: OccursAt(s, target, i)
  }

  /** `String.replace(CharSequence, CharSequence)` with a non-empty target:
      scan left to right and replace each non-overlapping occurrence. */
  function ReplaceAll(s: string, target: string, replacement: string): (r: string)
    requires |target| > 0
    ensures r == Join(Split(s, target), replacement)
    decreases |s|
  {
    if |s| < |target| then s
    else if s[..|target|] == target then
      var rest := Split(s[|target|..], target);
      assert Split(s, target) == [""] + rest && ([""] + rest)[1..] == rest;
      replacement + ReplaceAll(s[|target|..], target, replacement)
    else
      JoinConsHead(s[0], Split(s[1..], target), replacement);
      [s[0]] + ReplaceAll(s[1..], target, replacement)
  }

  /** The pieces of `s` between the occurrences of the target, found left to
      right without overlap; ReplaceAll glues them back with the
      replacement. */
  function Split(s: string, target: string): (pieces: seq<string>)
    requires |target| > 0
    ensures |pieces| >= 1
    decreases |s|
  {
    if |s| < |target| then [s]
    else if s[..|target|] == target then [""] + Split(s[|target|..], target)
    else
      var rest := Split(s[1..], target);
      [[s[0]] + rest[0]] + rest[1..]
  }

  /** The pieces glued together with `separator` between neighbours. */
  function Join(pieces: seq<string>, separator: string): string
    requires |pieces| >= 1
    decreases |pieces|
  {
    if |pieces| == 1 then pieces[0] else pieces[0] + separator + Join(pieces[1..], separator)
  }

  lemma JoinConsHead(c: char, pieces: seq<string>, separator: string)
    requires |pieces| >= 1
    ensures Join([[c] + pieces[0]] + pieces[1..], separator) == [c] + Join(pieces, separator)
  {
    var p := [[c] + pieces[0]] + pieces[1..];
    if |pieces| > 1 {
      assert p[1..] == pieces[1..];
    }
  }

  /** Gluing the pieces back with the target itself restores the input, so
      Split loses no text. */
  lemma {:induction false} SplitJoinRoundTrip(s: string, target: string)
    requires |target| > 0
    ensures Join(Split(s, target), target) == s
    decreases |s|
  {
    if |s| < |target| {
    } else if s[..|target|] == target {
      var rest := Split(s[|target|..], target);
      var p := [""] + rest;
      assert Split(s, target) == p && p[1..] == rest;
      SplitJoinRoundTrip(s[|target|..], target);
      assert Join(p, target) == "" + target + Join(rest, target);
      assert s == s[..|target|] + s[|target|..];
    } else {
      var rest := Split(s[1..], target);
      assert Split(s, target) == [[s[0]] + rest[0]] + rest[1..];
      SplitJoinRoundTrip(s[1..], target);
      JoinConsHead(s[0], rest, target);
      assert s == [s[0]] + s[1..];
    }
  }

  lemma OccursInTail(s: string, target: string, i: int)
    requires |s| > 0
    requires OccursAt(s[1..], target, i)
    ensures OccursAt(s, target, i + 1)
  {
    assert s[1..][i..i + |target|] == s[i + 1..i + 1 + |target|];
  }

  /** No occurrence of the target starts inside `piece` when the target is
      appended to it: the first occurrence is the appended one. */
  predicate FirstOccurrenceAtEnd(piece: string, target: string) {
    forall i :: 0 <= i < |piece| ==> !OccursAt(piece + target, target, i)
  }

  lemma FirstOccurrenceAtEndExcludesTarget(piece: string, target: string)
    requires |target| > 0 && FirstOccurrenceAtEnd(piece, target)
    ensures !Occurs(piece, target)
  {
    forall i | 0 <= i
      ensures !OccursAt(piece, target, i)
    {
      if i + |target| <= |piece| {
        assert !OccursAt(piece + target, target, i);
        assert (piece + target)[i..i + |target|] == piece[i..i + |target|];
      }
    }
  }

  /** A target that does not occur leaves the string unchanged. */
  lemma ReplaceAbsentIsIdentity(s: string, target: string, replacement: string)
    requires |target| > 0
    requires !Occurs(s, target)
    ensures ReplaceAll(s, target, replacement) == s
  {
    SplitWithoutTarget(s, target);
  }

  /** A target that first occurs at the very end is the only one replaced. */
  lemma ReplaceTrailing(prefix: string, target: string, replacement: string)
    requires |target| > 0
    requires FirstOccurrenceAtEnd(prefix, target)
    ensures ReplaceAll(prefix + target, target, replacement) == prefix + replacement
  {
    SplitAfterFreePrefix(prefix, target, "");
    assert prefix + target + "" == prefix + target;
    assert Split("", target) == [""];
    assert Join([prefix] + [""], replacement) == prefix + replacement + "";
  }

  /** In particular when no character of the prefix starts the target. */
  lemma ReplaceAfterFreePrefix(prefix: string, target: string, replacement: string)
    requires |target| > 0
    requires forall i :: 0 <= i < |prefix| ==> prefix[i] != target[0]
    ensures ReplaceAll(prefix + target, target, replacement) == prefix + replacement
  {
    forall i | 0 <= i < |prefix|
      ensures !OccursAt(prefix + target, target, i)
    {
      assert (prefix + target)[i] == prefix[i];
    }
    ReplaceTrailing(prefix, target, replacement);
  }

  // --- where Split cuts ---------------------------------------------------------

  /** The head piece built from the first character and the next piece:
      the scan did not find the target at position 0, and the next piece
      starts no occurrence before the target that follows it. */
  lemma ConsPieceCutsFirst(s: string, piece: string, target: string)
    requires |target| > 0 && |s| >= |target| && s[..|target|] != target
    requires |s| > 0 && HasPrefix(s, [s[0]] + piece + target)
    requires FirstOccurrenceAtEnd(piece, target)
    ensures FirstOccurrenceAtEnd([s[0]] + piece, target)
  {
    var head := [s[0]] + piece;
    forall i | 0 <= i < |head|
      ensures !OccursAt(head + target, target, i)
    {
      if i == 0 {
        assert s[..|head + target|] == head + target;
        assert (head + target)[..|target|] == s[..|target|];
      } else {
        assert !OccursAt(piece + target, target, i - 1);
        assert (head + target)[i..i + |target|] == (piece + target)[i - 1..i - 1 + |target|];
      }
    }
  }

  /** The last piece built from the first character and the rest of the
      input, which holds no occurrence. */
  lemma ConsPieceHasNoTarget(s: string, piece: string, target: string)
    requires |target| > 0 && |s| >= |target| && s[..|target|] != target
    requires s == [s[0]] + piece && !Occurs(piece, target)
    ensures !Occurs(s, target)
  {
    forall i | 0 <= i
      ensures !OccursAt(s, target, i)
    {
      if 0 < i && i + |target| <= |s| {
        assert !OccursAt(piece, target, i - 1);
        assert s[i..i + |target|] == piece[i - 1..i - 1 + |target|];
      }
    }
  }

  /** Split cuts at the leftmost occurrences, left to right: every piece but
      the last is followed by an occurrence that is the first one starting
      in or after that piece, and the last piece holds no occurrence. So no
      piece contains the target. */
  lemma {:induction false} SplitCutsAtEveryOccurrence(s: string, target: string)
    requires |target| > 0
    ensures var pieces := Split(s, target);
            && (forall k :: 0 <= k < |pieces| - 1 ==> FirstOccurrenceAtEnd(pieces[k], target))
            && !Occurs(pieces[|pieces| - 1], target)
            && (forall k :: 0 <= k < |pieces| ==> !Occurs(pieces[k], target))
    decreases |s|
  {
    var pieces := Split(s, target);
    if |s| < |target| {
      assert pieces == [s];
    } else if s[..|target|] == target {
      var rest := Split(s[|target|..], target);
      assert pieces == [""] + rest;
      SplitCutsAtEveryOccurrence(s[|target|..], target);
      assert forall k :: 1 <= k < |pieces| ==> pieces[k] == rest[k - 1];
    } else {
      var rest := Split(s[1..], target);
      var head := [s[0]] + rest[0];
      assert pieces == [head] + rest[1..];
      SplitCutsAtEveryOccurrence(s[1..], target);
      SplitJoinRoundTrip(s, target);
      if |rest| == 1 {
        assert s == head;
        ConsPieceHasNoTarget(s, rest[0], target);
      } else {
        assert s == head + target + Join(rest[1..], target);
        ConsPieceCutsFirst(s, rest[0], target);
        FirstOccurrenceAtEndExcludesTarget(head, target);
      }
      assert forall k :: 1 <= k < |pieces| ==> pieces[k] == rest[k];
      forall k | 0 <= k < |pieces| - 1
        ensures !Occurs(pieces[k], target)
      {
        FirstOccurrenceAtEndExcludesTarget(pieces[k], target);
      }
    }
  }

  /** Input without the target is a single piece. */
  lemma {:induction false} SplitWithoutTarget(s: string, target: string)
    requires |target| > 0 && !Occurs(s, target)
    ensures Split(s, target) == [s]
    decreases |s|
  {
    if |s| >= |target| {
      assert !OccursAt(s, target, 0);
      forall i | OccursAt(s[1..], target, i) {
        OccursInTail(s, target, i);
      }
      SplitWithoutTarget(s[1..], target);
      assert [s[0]] + s[1..] == s;
    }
  }

  /** A prefix whose first occurrence of the target is the one following it
      becomes the first piece. */
  lemma {:induction false} SplitAfterFreePrefix(prefix: string, target: string, rest: string)
    requires |target| > 0 && FirstOccurrenceAtEnd(prefix, target)
    ensures Split(prefix + target + rest, target) == [prefix] + Split(rest, target)
    decreases |prefix|
  {
    var s := prefix + target + rest;
    if |prefix| == 0 {
      assert s[..|target|] == target && s[|target|..] == rest;
    } else {
      var tail := prefix[1..];
      assert s[..|target|] != target by {
        assert (prefix + target)[..|target|] == s[..|target|];
        assert !OccursAt(prefix + target, target, 0);
      }
      assert s[1..] == tail + target + rest;
      assert (prefix + target)[1..] == tail + target;
      forall i | 0 <= i < |tail|
        ensures !OccursAt(tail + target, target, i)
      {
        if OccursAt(tail + target, target, i) {
          OccursInTail(prefix + target, target, i);
        }
      }
      SplitAfterFreePrefix(tail, target, rest);
      assert prefix == [s[0]] + tail;
    }
  }

  /** Split is the only way to cut the input into pieces separated by the
      target at its leftmost occurrences: any such decomposition is Split's. */
  lemma {:induction false} SplitIsUnique(s: string, target: string, pieces: seq<string>)
    requires |target| > 0 && |pieces| >= 1 && Join(pieces, target) == s
    requires forall k :: 0 <= k < |pieces| - 1 ==> FirstOccurrenceAtEnd(pieces[k], target)
    requires !Occurs(pieces[|pieces| - 1], target)
    ensures pieces == Split(s, target)
    decreases |pieces|
  {
    if |pieces| == 1 {
      SplitWithoutTarget(s, target);
    } else {
      var rest := Join(pieces[1..], target);
      SplitAfterFreePrefix(pieces[0], target, rest);
      SplitIsUnique(rest, target, pieces[1..]);
      assert pieces == [pieces[0]] + pieces[1..];
    }
  }
}

=== FILE: wrappers.dfy ===
/** The Option and Result types used across the model: `Option` stands in
    for a Java reference that may be null, `Result` for a call that may throw. */
module Wrappers {

  datatype Option<+T> = None | Some(value: T) {

    /** Returns the value in Some, or the default when None. */
    function GetOr(default: T): T {
      match this
      case Some(v) => v
      case None => default
    }
  }

  datatype Result<+R, +E> = Ok(value: R) | Err(error: E)
}
